=== FILE: README.md ===
# MISP connector settings and CTT feed downloader, in Dafny

This project models two pieces of the OpenCTI connectors repository.

**The MISP connector's `ConfigLoader`** (`external-import/misp/src/connector/config_loader.py`):
- It selects exactly one settings source: the YAML file if it exists, otherwise the `.env` file, otherwise the process environment.
- It runs the "before" validator `migrate_deprecated_interval`. That validator pops the legacy `misp.interval` (in minutes) and writes it into `connector.duration_period`.
- It reads the `opencti`, `connector` and `misp` sections all-or-nothing. Field errors are collected, and unknown fields are kept as extras.
- It wraps any failure in `ConfigRetrievalError("Invalid OpenCTI configuration.", cause)`.
- Two field codecs take part: the comma-separated list codec (`ListFromString`: a before-validator plus a pycti-mode serializer) and the timestamp normaliser (`SafeAwareDatetime`).
- `model_dump_pycti` dumps the settings in JSON mode with the pycti context.

**The CTT threat-feed `Downloader`** (`external-import/ctt-threat-feed/src/rstcloud/FeedFetch.py`):
- Its constructor reads the settings from a configuration mapping, with Python's `str`/`int`/`bool` conversions.
- `get_feed` builds the date candidates and the target path. It then tries the parameter names "date" and "period" with every candidate, in that order.
- It stops at the first response with status 200 (decompress and save, or report the save error) or at the first request that raises.
- Otherwise it returns every rejection in attempt order.

Files:
- `wrappers.dfy`: `Option` and `Result`.
- `text.dfy`: the Python string operations the core relies on: `strip`, `split`/`join` on one character, `endswith`, `replace(p, "")`, `rstrip(c)`, `int(str)` and `str(int)`.
- `values.dfy`: raw settings values, Python truthiness and `int(...)`.
- `list_codec.dfy`: `comma_separated_list_validator` and `pycti_list_serializer`.
- `timestamps.dfy`: `safe_aware_datetime_validator`.
- `schema.dfy`: the three section models.
- `migration.dfy`: `migrate_deprecated_interval`. It is a function of the raw data, plus a class whose method edits the raw dictionary in place.
- `dump.dfy`: `model_dump` of each section, and the reload properties.
- `config_loader.dfy`: source selection, construction and `model_dump_pycti`.
- `feed_fetch.dfy`: the downloader. `GetFeed` keeps the source's two nested loops and is proved equal to the recursive specification `Feed`; a ghost log of its requests is proved equal to `FeedRequests`.

Pydantic's own coercions enter as parameters (the `Coercions` bundle), and so do the network and the file write:
- for a text-to-bool, text-to-int, text-to-timedelta or URL value, a `Coercions` function says what the coercion yields;
- for a request, a function gives the response;
- for a save, a function gives the outcome.

Native values (a bool for a bool field, an int for an int field, a list of strings for a list field, an explicit null for an optional field) are handled exactly.

## Model

| member | source | states |
|---|---|---|
| Text.Strip | external-import/misp/src/connector/config_loader.py:71 | `str.strip()`: the result has no whitespace at either end. It is `s` minus whitespace-only ends, and a stripped string is unchanged. |
| Text.Split | external-import/misp/src/connector/config_loader.py:71 | `str.split(",")`: one more piece than separators, no piece holds the separator, and joining the pieces gives back the input. |
| Text.SplitJoin | external-import/misp/src/connector/config_loader.py:71-84 | Splitting undoes joining when no piece holds the separator. |
| Text.SplitPrefix | external-import/misp/src/connector/config_loader.py:71 | Splitting a separator-free head before a tail glues the head onto the tail's first piece. |
| Text.JoinEmpty | external-import/misp/src/connector/config_loader.py:84 | `",".join(xs)` is empty exactly when `xs` is `[]` or `[""]`. |
| Text.JoinCount | external-import/misp/src/connector/config_loader.py:84 | `",".join(xs)` of comma-free items holds exactly one comma fewer than there are items. |
| Text.RemoveAll | external-import/ctt-threat-feed/src/rstcloud/FeedFetch.py:33 | `replace(p, "")` never lengthens. It strictly shortens a string that ends in `p`, and leaves one without `p` unchanged. |
| Text.RemoveAllFirst | external-import/ctt-threat-feed/src/rstcloud/FeedFetch.py:33 | `replace` scans left to right: in `x + p + y`, with no occurrence of `p` starting inside `x`, it keeps `x`, drops that `p` and goes on with `y`. |
| Text.RemoveAllAt | external-import/ctt-threat-feed/src/rstcloud/FeedFetch.py:33 | The same on one string: at the first occurrence index `i`, the result is `s[:i]` followed by the removal applied to what follows the occurrence. |
| Text.RemoveAllSuffix | external-import/ctt-threat-feed/src/rstcloud/FeedFetch.py:32-33 | Removing `p` from `x + p`, where `p` occurs only at the end, gives back `x`. |
| Text.EndsWithTail | external-import/ctt-threat-feed/src/rstcloud/FeedFetch.py:32 | A proper suffix of `s` is still a suffix of `s[1..]`. |
| Text.NoOccurrenceTail | external-import/ctt-threat-feed/src/rstcloud/FeedFetch.py:33 | A pattern absent from `s` is absent from `s[1..]`. |
| Text.RStrip | external-import/ctt-threat-feed/src/rstcloud/FeedFetch.py:9-11 | `rstrip("/")`: a prefix of the input that does not end in the character, and only that character was removed. |
| Text.LeadEnd | external-import/misp/src/connector/config_loader.py:71 | The first non-whitespace index, with only whitespace before it. |
| Text.TrailStart | external-import/misp/src/connector/config_loader.py:71 | The index after the last non-whitespace character, with only whitespace after it. |
| Text.DigitChar | external-import/ctt-threat-feed/src/rstcloud/FeedFetch.py:14-17 | The digit character of a value below ten reads back as that value. |
| Text.FormatNat | external-import/ctt-threat-feed/src/rstcloud/FeedFetch.py:12 | `str(n)`: nonempty decimal digits without a leading zero, whose value is `n`. |
| Text.FormatInt | external-import/ctt-threat-feed/src/rstcloud/FeedFetch.py:12 | `str(i)`: a minus sign exactly when `i` is negative, then nonempty decimal digits, without a leading zero, whose value is the magnitude of `i`. |
| Text.ParseIntDigits | external-import/ctt-threat-feed/src/rstcloud/FeedFetch.py:14-17 | `int(s)` of a nonempty string of decimal digits is the value of the digits. |
| Text.ParseIntSigned | external-import/ctt-threat-feed/src/rstcloud/FeedFetch.py:14-17 | `int(s)` reads a leading "-" followed by digits as their value negated, and a leading "+" followed by digits as their value. |
| Text.ParseIntBlank | external-import/ctt-threat-feed/src/rstcloud/FeedFetch.py:14-17 | `int(s)` of an empty or all-whitespace string fails. |
| Text.FormatIntRoundTrip | external-import/ctt-threat-feed/src/rstcloud/FeedFetch.py:12-17 | `int(str(i)) == i` for every integer. |
| Values.IntOf | external-import/misp/src/connector/config_loader.py:416 | `int(v)`: an int is kept and a bool gives 1 or 0. Text gives the integer it parses as, and fails when it does not parse. Any other value fails. |
| ListCodec.SplitCommaList | external-import/misp/src/connector/config_loader.py:67-71 | Empty text gives `[]`. Otherwise there is one item per comma-separated piece, each piece stripped and nothing else removed. |
| ListCodec.AsValues | external-import/misp/src/connector/config_loader.py:72 | Lifting a list of strings to raw values keeps its length and items. |
| ListCodec.CommaListValidator | external-import/misp/src/connector/config_loader.py:59-72 | Empty text becomes an empty list, other text becomes its split-and-stripped items, and a non-text value passes through unchanged. |
| ListCodec.SerializeList | external-import/misp/src/connector/config_loader.py:75-92 | The list is joined exactly when the dump is JSON and the context's mode is "pycti". The joined text is the comma-join of the items, whatever they hold; splitting it gives the items back when none holds a comma. Otherwise the list is kept as is. |
| ListCodec.SplitCommaListOfJoin | external-import/misp/src/connector/config_loader.py:59-85 | Splitting the comma-join of a list of plain items (no comma, no surrounding whitespace) gives the list back, except `[""]`, which comes back as `[]`. |
| ListCodec.PyctiDumpReloads | external-import/misp/src/connector/config_loader.py:83-84 | The pycti context makes the serializer join, and the validator reads the joined text back as the list. |
| Timestamps.ToUtc | external-import/misp/src/connector/config_loader.py:103-111 | `astimezone(utc)`: the result is in UTC. An aware value keeps its instant, and a naive one is read in the local zone. |
| Timestamps.SafeAwareDatetime | external-import/misp/src/connector/config_loader.py:95-113 | A datetime is converted to UTC (`astimezone(utc)`, same instant when aware, read in the local zone when naive). Text succeeds exactly when the strict or the ISO parser reads it. A strict read keeps its own offset. A fallback read is the ISO parse converted to UTC. Other values pass through. |
| Timestamps.FallbackReadsLocalZone | external-import/misp/src/connector/config_loader.py:108-111 | Text that only `fromisoformat` reads, with no offset, is taken as local time and converted to UTC. |
| Schema.StrItems | external-import/misp/src/connector/config_loader.py:88-92 | The strings taken out of a list of string values lift back to that list. |
| Schema.AsStrList | external-import/misp/src/connector/config_loader.py:88-92 | `ListFromString`: text is split by the comma-list validator. A list is accepted exactly when all its items are strings, and the accepted items are the list's own. Every other kind of value is rejected. |
| Schema.AsAwareDatetime | external-import/misp/src/connector/config_loader.py:116-119 | A datetime or text is accepted exactly when `safe_aware_datetime_validator` accepts it, and the value read is the datetime it returns. A datetime comes out in UTC with the same instant. Every accepted value carries an offset. |
| Schema.AsLogLevel | external-import/misp/src/connector/config_loader.py:161-168 | Accepted exactly for the five level names. |
| Schema.Required | external-import/misp/src/connector/config_loader.py:135-136 | A field without a default: omitted, it is a "missing" error at its section and name. Given, it is read exactly when its coercion accepts it, as the coerced value; otherwise it is an "invalid" error at its location. |
| Schema.Defaulted | external-import/misp/src/connector/config_loader.py:137-138 | A field with a default: omitted, it takes the default. Given, it is read exactly when its coercion accepts it, as the coerced value; otherwise it is an "invalid" error at its location. |
| Schema.Extras | external-import/misp/src/connector/config_loader.py:127 | `extra="allow"`: exactly the undeclared fields are kept, with their values. |
| Schema.ParseOpenCTI | external-import/misp/src/connector/config_loader.py:130-138 | It succeeds only with `url` and `token` given. `json_logging` defaults to true and `ssl_verify` to false. Extras are kept. A missing `url` or `token` is reported, and a failure names at least one error. |
| Schema.OpenCTIReads | external-import/misp/src/connector/config_loader.py:130-138 | The `opencti` section is read exactly when `url` and `token` are given and every given field has its type. |
| Schema.OpenCTIInvalidReported | external-import/misp/src/connector/config_loader.py:135-138 | Each `opencti` field given with a value its type rejects is reported as invalid at its location. |
| Schema.OpenCTIValues | external-import/misp/src/connector/config_loader.py:135-138 | The fields of a read `opencti` section are the values given, coerced. |
| Schema.ParseConnector | external-import/misp/src/connector/config_loader.py:141-181 | It succeeds only with `id` and `name` given. Extras are kept. A missing `id` or `name` is reported, and a failure is nonempty. |
| Schema.ConnectorReads | external-import/misp/src/connector/config_loader.py:141-181 | The `connector` section is read exactly when `id` and `name` are given and every given field has its type. |
| Schema.ConnectorInvalidReported1 | external-import/misp/src/connector/config_loader.py:146-160 | Each of `id`, `name`, `type`, `scope` and `duration_period` given with a value its type rejects is reported as invalid at its location. |
| Schema.ConnectorInvalidReported2 | external-import/misp/src/connector/config_loader.py:162-172 | The same for `log_level` through `only_contextual`. |
| Schema.ConnectorInvalidReported3 | external-import/misp/src/connector/config_loader.py:173-178 | The same for `run_and_terminate` through `send_to_queue`. |
| Schema.ConnectorInvalidReported4 | external-import/misp/src/connector/config_loader.py:179-181 | The same for the three `send_to_directory` fields. |
| Schema.ConnectorValues1 | external-import/misp/src/connector/config_loader.py:146-168 | The fields `id` through `log_level` of a read `connector` section are the values given, coerced. |
| Schema.ConnectorValues2 | external-import/misp/src/connector/config_loader.py:169-174 | The same for `auto` through `validate_before_import`. |
| Schema.ConnectorValues3 | external-import/misp/src/connector/config_loader.py:175-181 | The same for `queue_protocol` through `send_to_directory_retention`. |
| Schema.ConnectorDefaults | external-import/misp/src/connector/config_loader.py:150-181 | The declared defaults: type only "EXTERNAL_IMPORT", scope `["misp"]`, five minutes, log level error, port 9095, "amqp", threshold 500, send to queue, no directory path, retention 7. |
| Schema.ConnectorSwitchesDefaultOff | external-import/misp/src/connector/config_loader.py:169-179 | `auto`, `expose_metrics`, `only_contextual`, `run_and_terminate`, `validate_before_import` and `send_to_directory` default to false. |
| Schema.ConnectorDurationGiven | external-import/misp/src/connector/config_loader.py:157-160 | A `timedelta` given for `duration_period` is taken as it is. |
| Schema.ParseMisp | external-import/misp/src/connector/config_loader.py:184-334 | It succeeds only with the eight fields that have no default (`url`, `key`, `ssl_verify`, the three `create_*` switches, `import_only_published`, `import_to_ids_no_score`). Extras are kept, and a failure is nonempty. |
| Schema.MispReads | external-import/misp/src/connector/config_loader.py:184-334 | The `misp` section is read exactly when the eight fields without a default are given and every given field has its type. |
| Schema.MispReadOnlyValid | external-import/misp/src/connector/config_loader.py:184-334 | A `misp` section that is read has all its required fields given and every given field of its type. |
| Schema.MispValidRead | external-import/misp/src/connector/config_loader.py:184-334 | A `misp` section whose required fields are given and whose given fields all have their types is read. |
| Schema.MispInvalidReported1 | external-import/misp/src/connector/config_loader.py:189-203 | Each of `url`, `key`, `ssl_verify`, `client_cert` and `reference_url` given with a value its type rejects is reported as invalid at its location. |
| Schema.MispInvalidReported2 | external-import/misp/src/connector/config_loader.py:204-224 | The same for `create_reports` through `date_filter_field`. |
| Schema.MispInvalidReported3 | external-import/misp/src/connector/config_loader.py:225-248 | The same for `report_description_attribute_filter` through `author_from_tags`. |
| Schema.MispInvalidReported4 | external-import/misp/src/connector/config_loader.py:249-272 | The same for `markings_from_tags` through `import_from_date`. |
| Schema.MispInvalidReported5 | external-import/misp/src/connector/config_loader.py:273-292 | The same for `import_tags` through `import_owner_orgs`. |
| Schema.MispInvalidReported6 | external-import/misp/src/connector/config_loader.py:293-311 | The same for `import_owner_orgs_not` through `import_only_published`. |
| Schema.MispInvalidReported7 | external-import/misp/src/connector/config_loader.py:312-334 | The same for `import_with_attachments` through `propagate_labels`. |
| Schema.MispValues1 | external-import/misp/src/connector/config_loader.py:189-206 | The fields `url` through `create_reports` of a read `misp` section are the values given, coerced. |
| Schema.MispValues2 | external-import/misp/src/connector/config_loader.py:207-233 | The same for `create_indicators` through `create_object_observables`. |
| Schema.MispValues3 | external-import/misp/src/connector/config_loader.py:234-264 | The same for `create_tags_as_labels` through `enforce_warning_list`. |
| Schema.MispValues4 | external-import/misp/src/connector/config_loader.py:265-288 | The same for `report_type` through `import_creator_orgs_not`. |
| Schema.MispValues5 | external-import/misp/src/connector/config_loader.py:289-311 | The same for `import_owner_orgs` through `import_only_published`. |
| Schema.MispValues6 | external-import/misp/src/connector/config_loader.py:312-334 | The same for `import_with_attachments` through `propagate_labels`. |
| Schema.MispDefaults | external-import/misp/src/connector/config_loader.py:214-272 | `datetime_attribute` and `date_filter_field` default to "timestamp", `report_type` to "misp-event", the description filter to `{}` and `import_from_date` to None. |
| Schema.MispImportFromDateAware | external-import/misp/src/connector/config_loader.py:269-272 | A non-null `import_from_date` is read as an aware datetime. |
| Schema.MispOptionalDefaults | external-import/misp/src/connector/config_loader.py:196-203 | `client_cert` and `reference_url` default to None. |
| Schema.MispSwitchDefaults | external-import/misp/src/connector/config_loader.py:230-263 | `create_object_observables`, `guess_threats_from_tags`, `author_from_tags`, `markings_from_tags` and `enforce_warning_list` default to false. |
| Schema.MispImportSwitchDefaults | external-import/misp/src/connector/config_loader.py:312-335 | `import_with_attachments`, `import_unsupported_observables_as_text` and `propagate_labels` default to false. |
| Schema.MispTagListDefaults | external-import/misp/src/connector/config_loader.py:254-288 | `keep_original_tags_as_label`, `import_tags_not`, `import_creator_orgs` and `import_creator_orgs_not` default to `[]`. |
| Schema.MispFilterListDefaults | external-import/misp/src/connector/config_loader.py:289-308 | `import_owner_orgs`, `import_owner_orgs_not`, `import_distribution_levels` and `import_threat_levels` default to `[]`, and `import_keyword` to None. |
| Schema.MispImportDefaults | external-import/misp/src/connector/config_loader.py:234-329 | `import_tags` defaults to `[]`, and `create_tags_as_labels` and the transparent-text switch default to true. |
| Migration.PopInterval | external-import/misp/src/connector/config_loader.py:409-411 | Popping removes `interval` from the `misp` section and changes nothing else. |
| Migration.Migrate | external-import/misp/src/connector/config_loader.py:401-418 | The interval is always popped. It warns exactly when the interval is truthy. It fails exactly when `int()` of a truthy interval fails, or when the interval is beyond `timedelta`'s range (`OverflowError`). Otherwise `duration_period` becomes that many minutes, only in an existing `connector` section. Other sections are untouched and no section is created. |
| Migration.IntervalGone | external-import/misp/src/connector/config_loader.py:411 | After the migration, no interval is left. |
| Migration.MigrateIdempotent | external-import/misp/src/connector/config_loader.py:401-418 | A second migration changes nothing and does not warn. |
| Migration.HugeIntervalOverflows | external-import/misp/src/connector/config_loader.py:416 | An interval of more minutes than `timedelta` holds (999999999 days) warns and fails with the overflow. |
| Migration.RawConfig.constructor | external-import/misp/src/connector/config_loader.py:403 | The raw dictionary the validator is handed. |
| Migration.RawConfig.MigrateDeprecatedInterval | external-import/misp/src/connector/config_loader.py:403-418 | The in-place edit leaves the dictionary, the warning and the error that `Migrate` specifies. |
| Dump.ListField | external-import/misp/src/connector/config_loader.py:75-92 | A list field dumps as the comma-joined text in a pycti JSON dump, and as the list otherwise. |
| Dump.LogLevelName | external-import/misp/src/connector/config_loader.py:161-168 | The dumped log level reads back as the same level. |
| Dump.DumpOpenCTI | external-import/misp/src/connector/config_loader.py:130-138 | `model_dump` of the `opencti` section: exactly the four fields and the extras, each field holding the setting's value. |
| Dump.DumpConnector | external-import/misp/src/connector/config_loader.py:141-181 | `model_dump` of the `connector` section: the scope dumped by the list serializer, the log level as a name that reads back as the same level, and the run period as it is. |
| Dump.DumpMisp | external-import/misp/src/connector/config_loader.py:184-334 | `model_dump` of the `misp` section: `import_tags` dumped by the list serializer, and `import_from_date` present. |
| Dump.ListFieldReloads | external-import/misp/src/connector/config_loader.py:75-92 | A list of plain items dumped for pycti reads back as the same list. |
| Dump.OptListFieldReloads | external-import/misp/src/connector/config_loader.py:254-308 | The same for an optional list field, None included. |
| Dump.ExtrasOfDump | external-import/misp/src/connector/config_loader.py:127 | The extras of a dumped section are the extras it was dumped from. |
| Dump.OpenCTIReloads | external-import/misp/src/connector/config_loader.py:130-138 | A dumped `opencti` section reads back as the same section, given a URL already in `HttpUrl`'s form. |
| Dump.ScopeReloads | external-import/misp/src/connector/config_loader.py:153-156 | A dumped connector scope reads back as the same scope. |
| ConfigLoader.SettingsSources | external-import/misp/src/connector/config_loader.py:375-399 | Exactly one source: YAML if its file exists, else `.env` if its file exists, else the environment. |
| ConfigLoader.RawSettings | external-import/misp/src/connector/config_loader.py:395-399 | The settings see only the selected source's data. |
| ConfigLoader.TopExtras | external-import/misp/src/connector/config_loader.py:350-352 | Exactly the unknown top-level keys are kept. |
| ConfigLoader.Validate | external-import/misp/src/connector/config_loader.py:345-347 | It succeeds exactly when all three sections are present and read, and the result holds what they read. A missing section is reported, and a failure is nonempty. |
| ConfigLoader.Load | external-import/misp/src/connector/config_loader.py:360-367 | Migrate, then validate. It succeeds exactly when the migration raised nothing and the migrated data validates, and then the settings are what validation read. Every failure carries "Invalid OpenCTI configuration." Its cause is the migration's error if there was one, and otherwise the field errors of validation. |
| ConfigLoader.UnselectedSourcesIgnored | external-import/misp/src/connector/config_loader.py:395-399 | Replacing an unselected source's data does not change the outcome. |
| ConfigLoader.MissingSectionFails | external-import/misp/src/connector/config_loader.py:345-347 | A source without one of the three sections yields no settings. |
| ConfigLoader.RequiredFieldsPresent | external-import/misp/src/connector/config_loader.py:130-334 | Loaded settings imply that every required field of every section was given. |
| ConfigLoader.IntervalNeverKept | external-import/misp/src/connector/config_loader.py:411 | The interval never survives as an extra `misp` field. |
| ConfigLoader.IntervalBecomesDurationPeriod | external-import/misp/src/connector/config_loader.py:411-416 | A truthy integer interval of `n`, with a `connector` section, yields a run period of `n` minutes. |
| ConfigLoader.EnvironmentDefaultsToFiveMinutes | external-import/misp/src/connector/config_loader.py:157-160 | Without a period or an interval, the run period is five minutes. |
| ConfigLoader.Assemble | external-import/misp/src/connector/config_loader.py:369-373 | The dump's top level holds the three sections under their names and the unknown keys as they are. |
| ConfigLoader.ModelDump | external-import/misp/src/connector/config_loader.py:369-373 | `model_dump`: the three sections and the unknown top-level keys. The connector scope and the `misp` tags are dumped by the list serializer for the given mode and context. |
| ConfigLoader.ModelDumpPycti | external-import/misp/src/connector/config_loader.py:369-373 | `model_dump_pycti`: the connector scope and any `misp` tag list come out as comma-joined text. |
| ConfigLoader.PyctiDumpReloads | external-import/misp/src/connector/config_loader.py:369-373 | The pycti dump's `opencti` section reads back as the settings' section, and its scope reads back as the settings' scope. |
| FeedFetch.IntOf | external-import/ctt-threat-feed/src/rstcloud/FeedFetch.py:14-17 | `int(v)`: a number is kept and a flag gives 1 or 0. Text gives the integer it parses as, and fails when it does not parse. None fails. |
| FeedFetch.NewDownloader | external-import/ctt-threat-feed/src/rstcloud/FeedFetch.py:7-20 | It fails exactly when one of the three integer settings does not convert. Otherwise each field is its setting, or the documented default, converted. The API URL is the base URL with exactly its trailing "/" characters removed (`rstrip`). |
| FeedFetch.StrOf | external-import/ctt-threat-feed/src/rstcloud/FeedFetch.py:9-20 | `str(v)`: text is kept as it is, a number is its decimal form (which `int` reads back), a flag is "True" or "False", and None is "None". |
| FeedFetch.BoolOf | external-import/ctt-threat-feed/src/rstcloud/FeedFetch.py:18 | `bool(v)` is false for exactly the empty text, zero, `False` and None. Any other text, "False" and "0" included, is true. |
| FeedFetch.EmptyConfDefaults | external-import/ctt-threat-feed/src/rstcloud/FeedFetch.py:7-20 | An empty configuration gives the documented defaults. |
| FeedFetch.DateValue | external-import/ctt-threat-feed/src/rstcloud/FeedFetch.py:23-30 | The four named ranges map to their feed names, and any other value is used as given. |
| FeedFetch.Candidates | external-import/ctt-threat-feed/src/rstcloud/FeedFetch.py:31-33 | The date value comes first. A second, strictly shorter candidate is added exactly when the value ends in "_latest". |
| FeedFetch.TargetPath | external-import/ctt-threat-feed/src/rstcloud/FeedFetch.py:35-36 | The given path, or the default name when the path is empty. |
| FeedFetch.Pairs | external-import/ctt-threat-feed/src/rstcloud/FeedFetch.py:49 | One parameter name with each candidate, in candidate order. |
| FeedFetch.StepsAt | external-import/ctt-threat-feed/src/rstcloud/FeedFetch.py:48-49 | Name `i` with candidate `j` is attempt `i * |candidates| + j`: every name with every candidate, names in the outer loop and candidates in the inner one. |
| FeedFetch.Plan | external-import/ctt-threat-feed/src/rstcloud/FeedFetch.py:48-49 | Twice as many attempts as candidates: every "date" attempt, then every "period" attempt, each in candidate order. |
| FeedFetch.Headers | external-import/ctt-threat-feed/src/rstcloud/FeedFetch.py:38-44 | Four headers, the API key under both spellings. |
| FeedFetch.Proxies | external-import/ctt-threat-feed/src/rstcloud/FeedFetch.py:45 | An HTTPS proxy exactly when one is configured. |
| FeedFetch.StepOutcome | external-import/ctt-threat-feed/src/rstcloud/FeedFetch.py:51-96 | An attempt stops the call exactly when the request raised or the status is 200. A raise gives a request error with the request's URL and parameters. A 200 gives the saved path or the save error, with code 200. Any other status records the answer's URL, status and body. |
| FeedFetch.RunOutcomes | external-import/ctt-threat-feed/src/rstcloud/FeedFetch.py:47-101 | A run ends in one of four ways: a download to the target path answered with 200; a save error answered with 200; a request error at the feed URL with the parameters of one planned attempt; or one rejection (not 200) per attempt, after those already recorded. |
| FeedFetch.FeedOutcomes | external-import/ctt-threat-feed/src/rstcloud/FeedFetch.py:22-101 | `get_feed` reports "ok" exactly for a download. A download is to the target path with 200, a save error has 200, a request error is at the feed URL, and a full rejection lists two non-200 attempts per candidate. |
| FeedFetch.RequestsOf | external-import/ctt-threat-feed/src/rstcloud/FeedFetch.py:50-58 | One request per attempt, in attempt order, each for that attempt's name and candidate. |
| FeedFetch.RequestsOfFirst | external-import/ctt-threat-feed/src/rstcloud/FeedFetch.py:48-58 | The requests of the first `n + 1` attempts are the first attempt's, then those of the next `n`. |
| FeedFetch.RequestsOfCons | external-import/ctt-threat-feed/src/rstcloud/FeedFetch.py:48-58 | The requests of a nonempty plan are the first attempt's, then those of the rest. |
| FeedFetch.SentRequests | external-import/ctt-threat-feed/src/rstcloud/FeedFetch.py:48-96 | A run sends at least one request when any attempt is planned and never more than are planned. The requests it sends are those of a prefix of the plan, in order. |
| FeedFetch.SentContinues | external-import/ctt-threat-feed/src/rstcloud/FeedFetch.py:86-96 | A rejected attempt sends its request, and the run goes on with the rest of the plan. |
| FeedFetch.RunFirst | external-import/ctt-threat-feed/src/rstcloud/FeedFetch.py:51-96 | The first attempt either ends the run with its result, having sent only its own request, or records its rejection and leaves the rest of the plan, with its request sent. |
| FeedFetch.PairsFirst | external-import/ctt-threat-feed/src/rstcloud/FeedFetch.py:49 | Taking the next candidate off the remaining attempts. |
| FeedFetch.GetFeed | external-import/ctt-threat-feed/src/rstcloud/FeedFetch.py:22-101 | The nested loops return exactly what `Feed` specifies, and the requests they send are exactly those `FeedRequests` specifies. |
| FeedFetch.PlanStepsDistinct | external-import/ctt-threat-feed/src/rstcloud/FeedFetch.py:48-57 | With distinct candidates, no two attempts of one call have the same (parameter name, candidate) step. |
| FeedFetch.PlanRequestsDistinct | external-import/ctt-threat-feed/src/rstcloud/FeedFetch.py:48-57 | With distinct candidates, the requests of one call differ pairwise: no two attempts send the same query parameters. |
| FeedFetch.CandidatesDistinct | external-import/ctt-threat-feed/src/rstcloud/FeedFetch.py:31-33 | The candidates of one call are distinct. |
| FeedFetch.AllRejectedInOrder | external-import/ctt-threat-feed/src/rstcloud/FeedFetch.py:86-101 | When every attempt is rejected, the result lists one rejection per attempt, in attempt order, after those already recorded. |
| FeedFetch.AllRejectedSendsAll | external-import/ctt-threat-feed/src/rstcloud/FeedFetch.py:48-101 | When every attempt is rejected, every planned request is sent, in order. |
| FeedFetch.FirstStopDecides | external-import/ctt-threat-feed/src/rstcloud/FeedFetch.py:51-84 | The first attempt that is not rejected decides the result. The requests sent are exactly those up to and including it, so nothing after it is requested. |
| FeedFetch.AllRejectedCount | external-import/ctt-threat-feed/src/rstcloud/FeedFetch.py:47-101 | With every answer non-200, there are two rejections per candidate. |
| FeedFetch.FirstRaiseStops | external-import/ctt-threat-feed/src/rstcloud/FeedFetch.py:51-65 | A first request that raises ends the call with its URL and "date" parameters. |
| FeedFetch.HourlyCandidates | external-import/ctt-threat-feed/src/rstcloud/FeedFetch.py:24-33 | The range "1h" tries "1h_latest" and then "1h". |
| FeedFetch.LatestSingleCandidate | external-import/ctt-threat-feed/src/rstcloud/FeedFetch.py:24-33 | The ranges "latest" and "day" have the single candidate "latest". |

## Left out

- Reading the YAML file, parsing the `.env` file and reading the process environment are left out. Each source enters as its already-parsed data. So does the environment's split of `SECTION_FIELD` names on the first underscore. Whether each file exists enters as a flag.
- Pydantic's coercions are parameters of the model, in the `Coercions` bundle:
  - text to bool, text or float to int, and values to `timedelta`;
  - `HttpUrl` validation and normalisation;
  - the strict `AwareDatetime` parse and `datetime.fromisoformat`.
- The local time zone enters as a function.
- Floating-point settings are left out.
- Text to int (`Values.IntOf`, `FeedFetch.IntOf`) accepts only an optional sign and ASCII digits between whitespace. Python's underscores and non-ASCII digits are not modelled.
- Datetimes are unbounded microsecond counts with a minute offset. Their range limits and daylight-saving rules are not modelled. The one range limit the migration meets, `timedelta`'s 999999999 days, is modelled.
- The `print` of the error type in the timestamp fallback is output only, and is left out.
- Timestamps.SafeAwareDatetime: the fallback's own exception is modelled as a failure, not as its exception type.
- The deprecation warning is modelled as a returned flag.
- The migration edits the dictionary it is given. `Migration.RawConfig` models that edit, but not aliasing between that dictionary and the caller's copies.
- A section given as something other than a mapping is not modelled. The raw data is typed as sections of fields.
- Assigning to a frozen settings object is not modelled. The model's values are immutable.
- ConfigLoader.Load: an `int()` failure during the migration is kept as its own cause. Pydantic would report it as a validation error.
- `str()` of a compound setting (a list or a mapping) is not modelled.
- The JSON rendering of `timedelta`, datetime and URL values is kept as typed values, not text.
- ConfigLoader.ModelDumpPycti: only the `opencti` section and the connector scope are proved to read back. The round trip of the full `connector` and `misp` sections is not proved.
- Dump.DumpConnector: the contract names the scope, log level and run period entries only. The other fifteen entries and the extras hold the settings' values by definition, but are not restated, because each added entry makes every proof that uses the dump much more expensive.
- Dump.DumpMisp: the contract names the `import_tags` and `import_from_date` entries only, for the same reason.
- ConfigLoader.ModelDump: the contract names the top-level keys, the extras, the connector scope and the `misp` tags. The rest of each section is given by the section dumps.
- FeedFetch.NewDownloader: `retry` and `ssl_verify` are read and stored, but `get_feed` never uses them, and the model keeps it that way.
- `get_feed`'s default arguments (`path=""`, `filetype="json"`) are ordinary parameters of `FeedFetch.Feed` and `FeedFetch.GetFeed`. The file-type default is recorded as `FeedFetch.DefaultFileType`.
- HTTP, gzip decompression and the file write are parameters:
  - a request's response is a function of the request, so one call never asks the same thing twice (`FeedFetch.PlanRequestsDistinct`);
  - the decompress-and-write step is a function of the path and the body, giving either done or the message of the exception it raised.
- The error body's JSON-or-text choice enters as the response's `errorBody`.

The timestamp validator's docstring promises only an aware datetime. The code returns a value the strict parser accepts with its own offset; only datetime inputs and the fallback parse are converted to UTC. The model follows the code.

=== FILE: config_loader.dfy ===
/**
 * `ConfigLoader`: the MISP connector's settings. One source is selected
 * (YAML file, else `.env` file, else the process environment), the
 * deprecated interval is migrated, and the three sections are read all at
 * once; any failure becomes a `ConfigRetrievalError` and no settings
 * object exists.
 */
module ConfigLoader {
  import opened Wrappers
  import opened Values
  import opened Schema
  import ListCodec
  import Migration
  import Dump

  // ---------------------------------------------------------------------
  // Source selection

  datatype Source = YamlFile | DotenvFile | Environment

  /**
   * `settings_customise_sources`: exactly one source, the YAML file when it
   * exists, else the `.env` file when it exists, else the environment.
   */
  function SettingsSources(yamlIsFile: bool, dotenvIsFile: bool): (r: seq<Source>)
    ensures |r| == 1
    ensures r[0] == YamlFile <==> yamlIsFile
    ensures r[0] == DotenvFile <==> !yamlIsFile && dotenvIsFile
    ensures r[0] == Environment <==> !yamlIsFile && !dotenvIsFile
  {
    if yamlIsFile then [YamlFile]
    else if dotenvIsFile then [DotenvFile]
    else [Environment]
  }

  /**
   * The world the loader runs in: whether `config.yml` and `../.env` are
   * files, and the raw data each of the three sources would produce.
   */
  datatype Inputs = Inputs(yamlIsFile: bool, dotenvIsFile: bool, yaml: RawData, dotenv: RawData, env: RawData)

  function SourceData(s: Source, inp: Inputs): RawData {
    match s
    case YamlFile => inp.yaml
    case DotenvFile => inp.dotenv
    case Environment => inp.env
  }

  /** The raw data the settings model receives: that of the one selected source, nothing merged in. */
  function RawSettings(inp: Inputs): (r: RawData)
    ensures inp.yamlIsFile ==> r == inp.yaml
    ensures !inp.yamlIsFile && inp.dotenvIsFile ==> r == inp.dotenv
    ensures !inp.yamlIsFile && !inp.dotenvIsFile ==> r == inp.env
  {
    SourceData(SettingsSources(inp.yamlIsFile, inp.dotenvIsFile)[0], inp)
  }

  // ---------------------------------------------------------------------
  // Construction

  /** The settings object: the three sections and the unknown top-level keys (`extra="allow"`). */
  datatype Config = Config(opencti: OpenCTIConfig, connector: ConnectorConfig, misp: MispConfig, extra: RawData)

  const SectionNames: set<string> := {"opencti", "connector", "misp"}

  function TopExtras(data: RawData): (e: RawData)
    ensures forall k :: k in e <==> k in data && k !in SectionNames
    ensures forall k :: k in e ==> e[k] == data[k]
  {
    map k | k in data && k !in SectionNames :: data[k]
  }

  function SectionErrors<T>(r: Result<T, seq<FieldError>>): seq<FieldError> {
    if r.Failure? then r.error else []
  }

  /**
   * The validation of the migrated data: a missing section is an error
   * located at the section's name, and the errors of all three sections
   * are reported together.
   */
  function Validate(data: RawData, co: Coercions): (r: Result<Config, seq<FieldError>>)
    ensures r.Success? <==>
      "opencti" in data && "connector" in data && "misp" in data
      && ParseOpenCTI(data["opencti"], co).Success?
      && ParseConnector(data["connector"], co).Success?
      && ParseMisp(data["misp"], co).Success?
    ensures r.Success? ==>
      r.value.opencti == ParseOpenCTI(data["opencti"], co).value
      && r.value.connector == ParseConnector(data["connector"], co).value
      && r.value.misp == ParseMisp(data["misp"], co).value
      && r.value.extra == TopExtras(data)
    ensures r.Failure? ==> r.error != []
    ensures "opencti" !in data ==> r.Failure? && FieldError(["opencti"], Missing) in r.error
    ensures "connector" !in data ==> r.Failure? && FieldError(["connector"], Missing) in r.error
    ensures "misp" !in data ==> r.Failure? && FieldError(["misp"], Missing) in r.error
  {
    var opencti :=
      if "opencti" in data then ParseOpenCTI(data["opencti"], co) else Failure([FieldError(["opencti"], Missing)]);
    var connector :=
      if "connector" in data then ParseConnector(data["connector"], co) else Failure([FieldError(["connector"], Missing)]);
    var misp :=
      if "misp" in data then ParseMisp(data["misp"], co) else Failure([FieldError(["misp"], Missing)]);
    var errs := SectionErrors(opencti) + SectionErrors(connector) + SectionErrors(misp);
    if errs == [] then
      Success(Config(opencti.value, connector.value, misp.value, TopExtras(data)))
    else
      Failure(errs)
  }

  /** What a construction failure wraps: the field errors, or the exception the interval migration raised. */
  datatype Cause = InvalidFields(errors: seq<FieldError>) | IntervalRejected(error: Migration.MigrationError)

  datatype ConfigRetrievalError = ConfigRetrievalError(message: string, cause: Cause)

  const InvalidConfiguration: string := "Invalid OpenCTI configuration."

  /**
   * `ConfigLoader()`: read the selected source, run the migration, validate.
   * Every failure is the one `ConfigRetrievalError` kind, wrapping its cause.
   */
  function Load(inp: Inputs, co: Coercions): (r: Result<Config, ConfigRetrievalError>)
    ensures r.Failure? ==> r.error.message == InvalidConfiguration
    ensures r.Failure? && r.error.cause.InvalidFields? ==> r.error.cause.errors != []
    ensures r.Success? <==>
      Migration.Migrate(RawSettings(inp)).error.None?
      && Validate(Migration.Migrate(RawSettings(inp)).data, co).Success?
    ensures r.Success? ==> r.value == Validate(Migration.Migrate(RawSettings(inp)).data, co).value
    ensures Migration.Migrate(RawSettings(inp)).error.Some? ==>
      r.Failure? && r.error.cause == IntervalRejected(Migration.Migrate(RawSettings(inp)).error.value)
    ensures Migration.Migrate(RawSettings(inp)).error.None? && r.Failure? ==>
      r.error.cause == InvalidFields(Validate(Migration.Migrate(RawSettings(inp)).data, co).error)
  {
    var migrated := Migration.Migrate(RawSettings(inp));
    if migrated.error.Some? then
      Failure(ConfigRetrievalError(InvalidConfiguration, IntervalRejected(migrated.error.value)))
    else
      match Validate(migrated.data, co)
      case Success(c) => Success(c)
      case Failure(errs) => Failure(ConfigRetrievalError(InvalidConfiguration, InvalidFields(errs)))
  }

  // ---------------------------------------------------------------------
  // Properties of construction

  /** The sources that were not selected have no say: changing their data changes nothing. */
  lemma UnselectedSourcesIgnored(inp: Inputs, co: Coercions, other: RawData)
    ensures inp.yamlIsFile ==>
      Load(inp.(dotenv := other), co) == Load(inp, co) && Load(inp.(env := other), co) == Load(inp, co)
    ensures !inp.yamlIsFile && inp.dotenvIsFile ==>
      Load(inp.(yaml := other), co) == Load(inp, co) && Load(inp.(env := other), co) == Load(inp, co)
    ensures !inp.yamlIsFile && !inp.dotenvIsFile ==>
      Load(inp.(yaml := other), co) == Load(inp, co) && Load(inp.(dotenv := other), co) == Load(inp, co)
  {
  }

  /** A source without one of the three sections yields no settings. */
  lemma MissingSectionFails(inp: Inputs, co: Coercions)
    requires !("opencti" in RawSettings(inp) && "connector" in RawSettings(inp) && "misp" in RawSettings(inp))
    ensures Load(inp, co).Failure?
  {
    var migrated := Migration.Migrate(RawSettings(inp));
    assert migrated.data.Keys == RawSettings(inp).Keys;
  }

  /** Settings exist only when every required field of every section was given. */
  lemma RequiredFieldsPresent(inp: Inputs, co: Coercions)
    ensures Load(inp, co).Success? ==>
      var raw := RawSettings(inp);
      "opencti" in raw && "connector" in raw && "misp" in raw
      && "url" in raw["opencti"] && "token" in raw["opencti"]
      && "id" in raw["connector"] && "name" in raw["connector"]
      && "url" in raw["misp"] && "key" in raw["misp"] && "ssl_verify" in raw["misp"]
      && "create_reports" in raw["misp"] && "create_indicators" in raw["misp"]
      && "create_observables" in raw["misp"] && "import_only_published" in raw["misp"]
      && "import_to_ids_no_score" in raw["misp"]
  {
    if Load(inp, co).Success? {
      var raw := RawSettings(inp);
      var data := Migration.Migrate(raw).data;
      assert data.Keys == raw.Keys;
      assert data["opencti"] == raw["opencti"];
      assert data["misp"] == raw["misp"] - {"interval"};
      assert data["connector"].Keys <= raw["connector"].Keys + {"duration_period"};
    }
  }

  /** The interval never survives into the settings, not even as an extra `misp` field. */
  lemma IntervalNeverKept(inp: Inputs, co: Coercions)
    ensures Load(inp, co).Success? ==> "interval" !in Load(inp, co).value.misp.extra
  {
    if Load(inp, co).Success? {
      var data := Migration.Migrate(RawSettings(inp)).data;
      assert "interval" !in data["misp"];
    }
  }

  /**
   * A truthy legacy interval of `n` minutes becomes the connector's run
   * period, whatever `duration_period` the source gave.
   */
  lemma IntervalBecomesDurationPeriod(inp: Inputs, co: Coercions, n: int)
    requires "misp" in RawSettings(inp) && "connector" in RawSettings(inp)
    requires "interval" in RawSettings(inp)["misp"]
    requires Truthy(RawSettings(inp)["misp"]["interval"])
    requires IntOf(RawSettings(inp)["misp"]["interval"]) == Success(n)
    ensures Load(inp, co).Success? ==> Load(inp, co).value.connector.durationPeriod == n * MicrosPerMinute
  {
    if Load(inp, co).Success? {
      var raw := RawSettings(inp);
      var data := Migration.Migrate(raw).data;
      assert Migration.Interval(raw) == raw["misp"]["interval"];
      assert MinutesInRange(n);
      assert data["connector"]["duration_period"] == VDuration(n * MicrosPerMinute);
      ConnectorDurationGiven(data["connector"], co);
    }
  }

  /**
   * With neither file present, a connector section from the environment
   * that names no run period and no legacy interval runs every five minutes.
   */
  lemma EnvironmentDefaultsToFiveMinutes(inp: Inputs, co: Coercions)
    requires !inp.yamlIsFile && !inp.dotenvIsFile
    requires "connector" in inp.env && "duration_period" !in inp.env["connector"]
    requires "misp" in inp.env && "interval" !in inp.env["misp"]
    ensures Load(inp, co).Success? ==> Load(inp, co).value.connector.durationPeriod == DefaultDurationPeriod
  {
    var data := Migration.Migrate(inp.env).data;
    assert Migration.Interval(inp.env) == VNone;
    assert data["connector"] == inp.env["connector"];
    ConnectorDefaults(data["connector"], co);
  }

  // ---------------------------------------------------------------------
  // Dumping

  /** The top level of a dump: the sections under their names, the unknown top-level keys as they are. */
  function Assemble(extra: RawData, opencti: Section, connector: Section, misp: Section): (d: RawData)
    ensures d.Keys == extra.Keys + SectionNames
    ensures d["opencti"] == opencti && d["connector"] == connector && d["misp"] == misp
    ensures forall k :: k in extra && k !in SectionNames ==> d[k] == extra[k]
  {
    extra + map["opencti" := opencti, "connector" := connector, "misp" := misp]
  }

  /**
   * `model_dump`: every section dumped in the given mode and context; list
   * fields are lists, or comma-joined strings in JSON mode with the pycti
   * context.
   */
  function ModelDump(c: Config, mode: ListCodec.DumpMode, context: Option<map<string, string>>): (d: RawData)
    ensures d.Keys == c.extra.Keys + SectionNames
    ensures forall k :: k in c.extra && k !in SectionNames ==> d[k] == c.extra[k]
    ensures "scope" in d["connector"] && d["connector"]["scope"] == Dump.ListField(c.connector.scope, mode, context)
    ensures "import_tags" in d["misp"] && d["misp"]["import_tags"] == Dump.OptListField(c.misp.importTags, mode, context)
  {
    var connector := Dump.DumpConnector(c.connector, mode, context);
    var misp := Dump.DumpMisp(c.misp, mode, context);
    var d := Assemble(c.extra, Dump.DumpOpenCTI(c.opencti), connector, misp);
    assert d["connector"] == connector && d["misp"] == misp;
    d
  }

  /**
   * `model_dump_pycti`: the JSON dump with the pycti context, the only dump
   * that joins list fields into comma-separated strings.
   */
  function ModelDumpPycti(c: Config): (d: RawData)
    ensures d.Keys == c.extra.Keys + SectionNames
    ensures "scope" in d["connector"] && d["connector"]["scope"] == VStr(Text.Join(c.connector.scope, ','))
    ensures c.misp.importTags.Some? ==>
      "import_tags" in d["misp"] && d["misp"]["import_tags"] == VStr(Text.Join(c.misp.importTags.value, ','))
  {
    assert ListCodec.PyctiContext(ListCodec.PyctiDumpContext);
    ModelDump(c, ListCodec.JsonMode, ListCodec.PyctiDumpContext)
  }

  /**
   * The pycti dump, read back, gives the same `opencti` section and the
   * same connector scope (for a scope whose items hold no comma and no
   * surrounding whitespace).
   */
  lemma PyctiDumpReloads(c: Config, co: Coercions)
    requires co.httpUrl(c.opencti.url) == Some(c.opencti.url)
    requires c.opencti.extra.Keys !! OpenCTIFields
    requires Dump.Reloadable(c.connector.scope)
    ensures var d := ModelDumpPycti(c);
      ParseOpenCTI(d["opencti"], co) == Success(c.opencti)
      && AsStrList(d["connector"]["scope"]) == Some(c.connector.scope)
  {
    Dump.OpenCTIReloads(c.opencti, co);
    Dump.ScopeReloads(c.connector);
  }
}

=== FILE: dump.dfy ===
/**
 * `model_dump` of the three section models: every declared field under its
 * own name, followed by the extra fields the section kept. List fields go
 * through the `ListFromString` serializer, so in a JSON dump with the
 * pycti context they come out as one comma-joined string.
 */
module Dump {
  import opened Wrappers
  import opened Values
  import opened ListCodec
  import opened Schema

  /** A list field as the serializer leaves it. */
  function ListField(items: seq<string>, mode: DumpMode, context: Option<map<string, string>>): (v: Value)
    ensures mode == JsonMode && PyctiContext(context) ==> v == VStr(Text.Join(items, ','))
    ensures !(mode == JsonMode && PyctiContext(context)) ==> v == VList(AsValues(items))
  {
    match SerializeList(items, mode, context)
    case Joined(text) => VStr(text)
    case Unjoined(xs) => VList(AsValues(xs))
  }

  function OptListField(items: Option<seq<string>>, mode: DumpMode, context: Option<map<string, string>>): Value {
    match items
    case None => VNone
    case Some(xs) => ListField(xs, mode, context)
  }

  function OptStrField(s: Option<string>): Value {
    match s
    case None => VNone
    case Some(x) => VStr(x)
  }

  function OptBoolField(b: Option<bool>): Value {
    match b
    case None => VNone
    case Some(x) => VBool(x)
  }

  function LogLevelName(l: LogLevel): (name: string)
    ensures AsLogLevel(VStr(name)) == Some(l)
  {
    match l
    case Debug => "debug"
    case Info => "info"
    case Warning => "warning"
    case Error => "error"
    case Critical => "critical"
  }

  // ---------------------------------------------------------------------
  // Section dumps

  /** The declared fields under their names, and every other extra field as it was kept. */
  function DumpOpenCTI(c: OpenCTIConfig): (d: Section)
    ensures d.Keys == c.extra.Keys + OpenCTIFields
    ensures forall f :: f in c.extra && f !in OpenCTIFields ==> d[f] == c.extra[f]
    ensures d["url"] == VStr(c.url) && d["token"] == VStr(c.token)
    ensures d["json_logging"] == VBool(c.jsonLogging) && d["ssl_verify"] == VBool(c.sslVerify)
  {
    c.extra + OpenCTIEntries(c)
  }

  function OpenCTIEntries(c: OpenCTIConfig): Section {
    map[
      "url" := VStr(c.url),
      "token" := VStr(c.token),
      "json_logging" := VBool(c.jsonLogging),
      "ssl_verify" := VBool(c.sslVerify)]
  }

  /**
   * The declared fields under their names, the scope through the list
   * serializer and the log level by name, and every other extra field as
   * it was kept.
   */
  function DumpConnector(c: ConnectorConfig, mode: DumpMode, context: Option<map<string, string>>): (d: Section)
    ensures "scope" in d && d["scope"] == ListField(c.scope, mode, context)
    ensures "log_level" in d && d["log_level"].VStr? && AsLogLevel(d["log_level"]) == Some(c.logLevel)
    ensures "duration_period" in d && d["duration_period"] == VDuration(c.durationPeriod)
  {
    c.extra + ConnectorEntries(c, mode, context)
  }

  function ConnectorEntries(c: ConnectorConfig, mode: DumpMode, context: Option<map<string, string>>): Section {
    map[
      "id" := VStr(c.id),
      "name" := VStr(c.name),
      "type" := VStr("EXTERNAL_IMPORT"),
      "scope" := ListField(c.scope, mode, context),
      "duration_period" := VDuration(c.durationPeriod),
      "log_level" := VStr(LogLevelName(c.logLevel)),
      "auto" := VBool(c.auto),
      "expose_metrics" := VBool(c.exposeMetrics),
      "metrics_port" := VInt(c.metricsPort),
      "only_contextual" := VBool(c.onlyContextual),
      "run_and_terminate" := VBool(c.runAndTerminate),
      "validate_before_import" := VBool(c.validateBeforeImport),
      "queue_protocol" := VStr(c.queueProtocol),
      "queue_threshold" := VInt(c.queueThreshold),
      "send_to_queue" := VBool(c.sendToQueue),
      "send_to_directory" := VBool(c.sendToDirectory),
      "send_to_directory_path" := OptStrField(c.sendToDirectoryPath),
      "send_to_directory_retention" := VInt(c.sendToDirectoryRetention)]
  }

  /** The declared fields under their names, list fields through the serializer, and every other extra field as it was kept. */
  function DumpMisp(c: MispConfig, mode: DumpMode, context: Option<map<string, string>>): (d: Section)
    ensures "import_tags" in d && d["import_tags"] == OptListField(c.importTags, mode, context)
    ensures "import_from_date" in d
      && d["import_from_date"] == (match c.importFromDate case None => VNone case Some(t) => VDateTime(t))
  {
    c.extra + MispEntries(c, mode, context)
  }

  function MispEntries(c: MispConfig, mode: DumpMode, context: Option<map<string, string>>): Section {
    map[
      "url" := VStr(c.url),
      "key" := VStr(c.key),
      "ssl_verify" := VBool(c.sslVerify),
      "client_cert" := OptStrField(c.clientCert),
      "reference_url" := OptStrField(c.referenceUrl),
      "create_reports" := VBool(c.createReports),
      "create_indicators" := VBool(c.createIndicators),
      "create_observables" := VBool(c.createObservables),
      "datetime_attribute" := OptStrField(c.datetimeAttribute),
      "date_filter_field" := OptStrField(c.dateFilterField),
      "report_description_attribute_filter" :=
        (match c.reportDescriptionAttributeFilter case None => VNone case Some(m) => VMap(m)),
      "create_object_observables" := OptBoolField(c.createObjectObservables),
      "create_tags_as_labels" := OptBoolField(c.createTagsAsLabels),
      "guess_threats_from_tags" := OptBoolField(c.guessThreatsFromTags),
      "author_from_tags" := OptBoolField(c.authorFromTags),
      "markings_from_tags" := OptBoolField(c.markingsFromTags),
      "keep_original_tags_as_label" := OptListField(c.keepOriginalTagsAsLabel, mode, context),
      "enforce_warning_list" := OptBoolField(c.enforceWarningList),
      "report_type" := OptStrField(c.reportType),
      "import_from_date" := (match c.importFromDate case None => VNone case Some(d) => VDateTime(d)),
      "import_tags" := OptListField(c.importTags, mode, context),
      "import_tags_not" := OptListField(c.importTagsNot, mode, context),
      "import_creator_orgs" := OptListField(c.importCreatorOrgs, mode, context),
      "import_creator_orgs_not" := OptListField(c.importCreatorOrgsNot, mode, context),
      "import_owner_orgs" := OptListField(c.importOwnerOrgs, mode, context),
      "import_owner_orgs_not" := OptListField(c.importOwnerOrgsNot, mode, context),
      "import_keyword" := OptStrField(c.importKeyword),
      "import_distribution_levels" := OptListField(c.importDistributionLevels, mode, context),
      "import_threat_levels" := OptListField(c.importThreatLevels, mode, context),
      "import_only_published" := VBool(c.importOnlyPublished),
      "import_with_attachments" := OptBoolField(c.importWithAttachments),
      "import_to_ids_no_score" := VInt(c.importToIdsNoScore),
      "import_unsupported_observables_as_text" := OptBoolField(c.importUnsupportedObservablesAsText),
      "import_unsupported_observables_as_text_transparent" :=
        OptBoolField(c.importUnsupportedObservablesAsTextTransparent),
      "propagate_labels" := OptBoolField(c.propagateLabels)]
  }

  // ---------------------------------------------------------------------
  // Reloading a pycti dump

  /** A list the pycti dump and a reload give back unchanged. */
  predicate Reloadable(items: seq<string>) {
    PlainItems(items) && items != [""]
  }

  predicate OptReloadable(items: Option<seq<string>>) {
    items.Some? ==> Reloadable(items.value)
  }

  /** A list field dumped for pycti reads back as the same list. */
  lemma ListFieldReloads(items: seq<string>)
    requires Reloadable(items)
    ensures AsStrList(ListField(items, JsonMode, PyctiDumpContext)) == Some(items)
  {
    assert PyctiContext(PyctiDumpContext) by { PyctiDumpReloads(items); }
    SplitCommaListOfJoin(items);
  }

  lemma OptListFieldReloads(items: Option<seq<string>>)
    requires OptReloadable(items)
    ensures OptStrList(OptListField(items, JsonMode, PyctiDumpContext)) == Some(items)
  {
    if items.Some? {
      ListFieldReloads(items.value);
      var v := ListField(items.value, JsonMode, PyctiDumpContext);
      assert PyctiContext(PyctiDumpContext) by { PyctiDumpReloads(items.value); }
      assert v.VStr?;
    }
  }

  /** The extras of a dumped section are the extras it was dumped from. */
  lemma ExtrasOfDump(extra: Section, fields: Section, declared: set<string>)
    requires extra.Keys !! declared
    requires fields.Keys == declared
    ensures Extras(extra + fields, declared) == extra
  {
  }

  /**
   * The `opencti` section of a pycti dump reads back as the section it was
   * dumped from, given a URL already in the form `HttpUrl` gives it.
   */
  lemma OpenCTIReloads(c: OpenCTIConfig, co: Coercions)
    requires co.httpUrl(c.url) == Some(c.url)
    requires c.extra.Keys !! OpenCTIFields
    ensures ParseOpenCTI(DumpOpenCTI(c), co) == Success(c)
  {
    var raw := DumpOpenCTI(c);
    assert OpenCTIEntries(c).Keys == OpenCTIFields;
    ExtrasOfDump(c.extra, OpenCTIEntries(c), OpenCTIFields);
    assert raw["url"] == VStr(c.url);
    assert raw["token"] == VStr(c.token);
    assert raw["json_logging"] == VBool(c.jsonLogging);
    assert raw["ssl_verify"] == VBool(c.sslVerify);
    assert Required("opencti", raw, "url", v => AsHttpUrl(co, v)) == Success(c.url);
    assert Required("opencti", raw, "token", AsStr) == Success(c.token);
    assert Defaulted("opencti", raw, "json_logging", v => AsBool(co, v), true) == Success(c.jsonLogging);
    assert Defaulted("opencti", raw, "ssl_verify", v => AsBool(co, v), false) == Success(c.sslVerify);
  }

  /** The scope of a pycti dump reads back as the scope it was dumped from. */
  lemma ScopeReloads(c: ConnectorConfig)
    requires Reloadable(c.scope)
    ensures AsStrList(DumpConnector(c, JsonMode, PyctiDumpContext)["scope"]) == Some(c.scope)
  {
    ListFieldReloads(c.scope);
  }
}

=== FILE: feed_fetch.dfy ===
/**
 * The CTT threat-feed `Downloader`: settings read once from a
 * configuration mapping, and `get_feed`, which tries a fixed sequence of
 * requests for one indicator type and stops at the first one that answers
 * 200 or raises. HTTP, decompression and the file write are parameters.
 */
module FeedFetch {
  import opened Wrappers
  import opened Text
  import Values

  // ---------------------------------------------------------------------
  // Settings

  /** A configuration value: what `conf.get` can hand back. */
  datatype Setting = SText(s: string) | SNumber(n: int) | SFlag(b: bool) | SNull

  /**
   * Python's `str(...)` of a setting: text as it is, a number in decimal
   * (so that `int(...)` reads it back), a flag as "True" or "False",
   * None as "None".
   */
  function StrOf(v: Setting): (r: string)
    ensures v.SText? ==> r == v.s
    ensures v.SNumber? ==> r == FormatInt(v.n) && ParseInt(r) == Some(v.n)
    ensures v.SFlag? ==> r == (if v.b then "True" else "False")
    ensures v.SNull? ==> r == "None"
  {
    FormatIntRoundTrip(if v.SNumber? then v.n else 0);
    match v
    case SText(s) => s
    case SNumber(n) => FormatInt(n)
    case SFlag(b) => if b then "True" else "False"
    case SNull => "None"
  }

  /** Python's `int(...)` of a setting. */
  function IntOf(v: Setting): (r: Result<int, Values.IntError>)
    ensures v.SNumber? ==> r == Success(v.n)
    ensures v.SFlag? ==> r == Success(if v.b then 1 else 0)
    ensures v.SText? ==> (r.Success? <==> ParseInt(v.s).Some?)
    ensures v.SText? && r.Success? ==> r.value == ParseInt(v.s).value
    ensures v.SNull? ==> r == Failure(Values.TypeError)
  {
    match v
    case SNumber(n) => Success(n)
    case SFlag(b) => Success(if b then 1 else 0)
    case SText(s) =>
      (match ParseInt(s)
       case Some(n) => Success(n)
       case None => Failure(Values.ValueError(s)))
    case SNull => Failure(Values.TypeError)
  }

  /**
   * Python's `bool(...)` of a setting: false for exactly the empty text,
   * zero, `False` and `None`; any other text, "False" and "0" included, is
   * true.
   */
  function BoolOf(v: Setting): (b: bool)
    ensures !b <==> v == SText("") || v == SNumber(0) || v == SFlag(false) || v == SNull
  {
    match v
    case SText(s) => s != ""
    case SNumber(n) => n != 0
    case SFlag(b) => b
    case SNull => false
  }

  type Conf = map<string, Setting>

  /** `conf.get(key, default)`. */
  function Get(conf: Conf, key: string, default: Setting): Setting {
    if key in conf then conf[key] else default
  }

  const DefaultBaseUrl: string := "https://api.cyberthreattech.ru/v1/"

  /** The downloader's settings; `retry` and `verify` are kept but no request uses them. */
  datatype Downloader = Downloader(
    apiUrl: string,
    apiKey: string,
    connectTimeout: int,
    readTimeout: int,
    retry: int,
    verify: bool,
    proxy: string,
    timeRange: string)

  /**
   * `Downloader.__init__`: every setting read with its default, the base
   * URL stripped of trailing slashes; the first value `int(...)` rejects
   * (connect timeout, read timeout, retry, in that order) aborts.
   * The time range is read from the key "latest".
   */
  function NewDownloader(conf: Conf): (r: Result<Downloader, Values.IntError>)
    ensures r.Success? <==>
      IntOf(Get(conf, "contimeout", SNumber(30))).Success?
      && IntOf(Get(conf, "readtimeout", SNumber(60))).Success?
      && IntOf(Get(conf, "retry", SNumber(5))).Success?
    ensures r.Success? ==>
      var d := r.value;
      d.apiUrl == RStrip(StrOf(Get(conf, "baseurl", SText(DefaultBaseUrl))), '/')
      && d.apiKey == StrOf(Get(conf, "apikey", SText("REPLACEME")))
      && d.connectTimeout == IntOf(Get(conf, "contimeout", SNumber(30))).value
      && d.readTimeout == IntOf(Get(conf, "readtimeout", SNumber(60))).value
      && d.retry == IntOf(Get(conf, "retry", SNumber(5))).value
      && d.verify == BoolOf(Get(conf, "ssl_verify", SFlag(true)))
      && d.proxy == StrOf(Get(conf, "proxy", SText("")))
      && d.timeRange == StrOf(Get(conf, "latest", SText("latest")))
  {
    var apiUrl := RStrip(StrOf(Get(conf, "baseurl", SText(DefaultBaseUrl))), '/');
    var apiKey := StrOf(Get(conf, "apikey", SText("REPLACEME")));
    var connectTimeout := IntOf(Get(conf, "contimeout", SNumber(30)));
    if connectTimeout.Failure? then Failure(connectTimeout.error) else
    var readTimeout := IntOf(Get(conf, "readtimeout", SNumber(60)));
    if readTimeout.Failure? then Failure(readTimeout.error) else
    var retry := IntOf(Get(conf, "retry", SNumber(5)));
    if retry.Failure? then Failure(retry.error) else
    Success(Downloader(
      apiUrl, apiKey, connectTimeout.value, readTimeout.value, retry.value,
      BoolOf(Get(conf, "ssl_verify", SFlag(true))),
      StrOf(Get(conf, "proxy", SText(""))),
      StrOf(Get(conf, "latest", SText("latest")))))
  }

  /** An empty configuration gives the documented defaults. */
  lemma EmptyConfDefaults()
    ensures NewDownloader(map[]) == Success(Downloader(
      "https://api.cyberthreattech.ru/v1", "REPLACEME", 30, 60, 5, true, "", "latest"))
  {
    var url := DefaultBaseUrl;
    assert url[|url| - 1] == '/' && url[|url| - 2] != '/';
    assert RStrip(url[..|url| - 1], '/') == url[..|url| - 1];
    assert url[..|url| - 1] == "https://api.cyberthreattech.ru/v1";
  }

  // ---------------------------------------------------------------------
  // Planning the requests

  /** The named time ranges and their feed names; any other range is used as given. */
  function DateValue(fdate: string): (dv: string)
    ensures fdate == "day" ==> dv == "latest"
    ensures fdate == "1h" ==> dv == "1h_latest"
    ensures fdate == "4h" ==> dv == "4h_latest"
    ensures fdate == "12h" ==> dv == "12h_latest"
    ensures fdate !in {"day", "1h", "4h", "12h"} ==> dv == fdate
  {
    if fdate == "day" then "latest"
    else if fdate == "1h" then "1h_latest"
    else if fdate == "4h" then "4h_latest"
    else if fdate == "12h" then "12h_latest"
    else fdate
  }

  const LatestSuffix: string := "_latest"

  /**
   * The date values tried, in order: the date value itself, then, when it
   * ends in "_latest", the same value with every "_latest" removed.
   */
  function Candidates(dv: string): (c: seq<string>)
    ensures 1 <= |c| <= 2 && c[0] == dv
    ensures |c| == 2 <==> EndsWith(dv, LatestSuffix)
    ensures |c| == 2 ==> c[1] == RemoveAll(dv, LatestSuffix) && |c[1]| < |dv|
  {
    if EndsWith(dv, LatestSuffix) then [dv, RemoveAll(dv, LatestSuffix)] else [dv]
  }

  /** The file written when the caller names none. */
  function DefaultPath(ioctype: string, dv: string, filetype: string): string {
    "threatfeed_" + ioctype + "_" + dv + "." + filetype + ".gz"
  }

  /** The file actually written: `path` unless it is empty. */
  function TargetPath(path: string, ioctype: string, dv: string, filetype: string): (p: string)
    ensures path != "" ==> p == path
    ensures path == "" ==> p == DefaultPath(ioctype, dv, filetype)
  {
    if path == "" then DefaultPath(ioctype, dv, filetype) else path
  }

  /** The parameter names tried, in order. */
  const ParamNames: seq<string> := ["date", "period"]

  /** The query parameters of one attempt. */
  function Params(filetype: string, paramName: string, candidate: string): map<string, string> {
    map["type" := filetype, paramName := candidate]
  }

  /** One parameter name with each candidate, in candidate order. */
  function Pairs(name: string, candidates: seq<string>): (p: seq<(string, string)>)
    ensures |p| == |candidates|
    ensures forall k :: 0 <= k < |p| ==> p[k] == (name, candidates[k])
  {
    seq(|candidates|, k requires 0 <= k < |candidates| => (name, candidates[k]))
  }

  /** The attempts of the nested loops over `names` and then `candidates`. */
  function Steps(names: seq<string>, candidates: seq<string>): (p: seq<(string, string)>)
    ensures |p| == |names| * |candidates|
  {
    if names == [] then [] else Pairs(names[0], candidates) + Steps(names[1..], candidates)
  }

  /** The attempt of the `i`-th name with the `j`-th candidate comes at position `i * |candidates| + j`. */
  lemma {:induction false} StepsAt(names: seq<string>, candidates: seq<string>, i: nat, j: nat)
    requires i < |names| && j < |candidates|
    ensures i * |candidates| + j < |Steps(names, candidates)|
    ensures Steps(names, candidates)[i * |candidates| + j] == (names[i], candidates[j])
    decreases i
  {
    var m := |candidates|;
    if i > 0 {
      StepsAt(names[1..], candidates, i - 1, j);
      assert i * m + j == m + ((i - 1) * m + j);
      assert names[1..][i - 1] == names[i];
    }
  }

  /** Every `(parameter name, candidate)` pair: the "date" ones first, each in candidate order. */
  function Plan(candidates: seq<string>): (plan: seq<(string, string)>)
    ensures plan == Steps(ParamNames, candidates)
    ensures |plan| == 2 * |candidates|
    ensures forall k :: 0 <= k < |candidates| ==>
      plan[k] == ("date", candidates[k]) && plan[|candidates| + k] == ("period", candidates[k])
  {
    assert ParamNames[0] == "date" && ParamNames[1..] == ["period"];
    assert ParamNames[1..][1..] == [];
    assert Steps(ParamNames[1..], candidates) == Pairs("period", candidates) + [];
    Pairs("date", candidates) + Pairs("period", candidates)
  }

  // ---------------------------------------------------------------------
  // Requests and their outcomes

  /** One `requests.get` call, as the downloader issues it. */
  datatype Request = Request(
    url: string,
    headers: map<string, string>,
    proxies: Option<map<string, string>>,
    timeout: (int, int),
    params: map<string, string>)

  /** What `requests.get` does: raise, or answer with a final URL, a status, a body and the error body it would report. */
  datatype Response =
    | Raised(message: string)
    | Answered(url: string, status: int, content: seq<bv8>, errorBody: string)

  /** Decompressing the body and writing it to the file: done, or the message of the exception raised. */
  datatype Saving = Saved | SaveFailed(message: string)

  /** One rejected attempt, as recorded. */
  datatype Attempt = Attempt(url: string, code: int, body: string)

  /** The dictionary `get_feed` returns. */
  datatype FeedResult =
    | Downloaded(path: string, url: string, code: int)
    | SaveError(message: string, url: string, code: int)
    | RequestError(message: string, url: string, params: map<string, string>)
    | AllRejected(attempts: seq<Attempt>)
  {
    function Status(): string {
      if Downloaded? then "ok" else "error"
    }
  }

  function Headers(apiKey: string): (h: map<string, string>)
    ensures h.Keys == {"User-Agent", "Accept", "X-Api-Key", "x-api-key"}
    ensures h["X-Api-Key"] == apiKey && h["x-api-key"] == apiKey
  {
    map[
      "User-Agent" := "opencti_ctt_threat_feed",
      "Accept" := "application/json",
      "X-Api-Key" := apiKey,
      "x-api-key" := apiKey]
  }

  function Proxies(proxy: string): (p: Option<map<string, string>>)
    ensures p.Some? <==> proxy != ""
    ensures p.Some? ==> p.value == map["https" := proxy]
  {
    if proxy != "" then Some(map["https" := proxy]) else None
  }

  function FeedUrl(d: Downloader, ioctype: string): string {
    d.apiUrl + "/" + ioctype
  }

  function RequestFor(d: Downloader, ioctype: string, filetype: string, step: (string, string)): Request {
    Request(
      FeedUrl(d, ioctype), Headers(d.apiKey), Proxies(d.proxy),
      (d.connectTimeout, d.readTimeout), Params(filetype, step.0, step.1))
  }

  /** The outcome of one attempt: stop with a result, or go on after recording a rejection. */
  datatype Step = Stop(result: FeedResult) | Continue(attempt: Attempt)

  function StepOf(req: Request, response: Response, path: string, save: (string, seq<bv8>) -> Saving): Step {
    match response
    case Raised(message) => Stop(RequestError(message, req.url, req.params))
    case Answered(url, status, content, errorBody) =>
      if status == 200 then
        match save(path, content)
        case Saved => Stop(Downloaded(path, url, status))
        case SaveFailed(message) => Stop(SaveError(message, url, status))
      else Continue(Attempt(url, status, errorBody))
  }

  /**
   * One attempt stops the call exactly when the request raised or was
   * answered with 200; a 200 answer ends as the saved file's path or the
   * save error, and any other answer is recorded with its URL, status and
   * body.
   */
  lemma StepOutcome(req: Request, response: Response, path: string, save: (string, seq<bv8>) -> Saving)
    ensures var st := StepOf(req, response, path, save);
      (st.Stop? <==> response.Raised? || response.status == 200)
      && (response.Raised? ==> st == Stop(RequestError(response.message, req.url, req.params)))
      && (response.Answered? && response.status == 200 ==>
            (save(path, response.content) == Saved ==> st == Stop(Downloaded(path, response.url, 200)))
            && (save(path, response.content).SaveFailed? ==>
                  st == Stop(SaveError(save(path, response.content).message, response.url, 200))))
      && (st.Continue? ==> st.attempt == Attempt(response.url, response.status, response.errorBody))
  {
  }

  /** The attempts from `plan` on, given the rejections recorded so far. */
  function Run(
    d: Downloader, ioctype: string, filetype: string, path: string, plan: seq<(string, string)>,
    rejected: seq<Attempt>, get: Request -> Response, save: (string, seq<bv8>) -> Saving): FeedResult
    decreases |plan|
  {
    if plan == [] then AllRejected(rejected)
    else
      var req := RequestFor(d, ioctype, filetype, plan[0]);
      match StepOf(req, get(req), path, save)
      case Stop(result) => result
      case Continue(attempt) => Run(d, ioctype, filetype, path, plan[1..], rejected + [attempt], get, save)
  }

  /** `get_feed`'s default `filetype`; callers that omit it pass this value. */
  const DefaultFileType: string := "json"

  /** `get_feed` as a function of the downloader, its arguments, the network and the file system. */
  function Feed(
    d: Downloader, ioctype: string, path: string, filetype: string,
    get: Request -> Response, save: (string, seq<bv8>) -> Saving): FeedResult
  {
    var dv := DateValue(d.timeRange);
    Run(d, ioctype, filetype, TargetPath(path, ioctype, dv, filetype), Plan(Candidates(dv)), [], get, save)
  }

  /** The requests a run issues after those already `sent`. */
  function Sent(
    d: Downloader, ioctype: string, filetype: string, path: string, plan: seq<(string, string)>,
    sent: seq<Request>, get: Request -> Response, save: (string, seq<bv8>) -> Saving): seq<Request>
    decreases |plan|
  {
    if plan == [] then sent
    else
      var req := RequestFor(d, ioctype, filetype, plan[0]);
      if StepOf(req, get(req), path, save).Stop? then sent + [req]
      else Sent(d, ioctype, filetype, path, plan[1..], sent + [req], get, save)
  }

  /** The requests of the given steps, in order. */
  function RequestsOf(d: Downloader, ioctype: string, filetype: string, steps: seq<(string, string)>): (rs: seq<Request>)
    ensures |rs| == |steps|
    ensures forall i :: 0 <= i < |steps| ==> rs[i] == RequestFor(d, ioctype, filetype, steps[i])
  {
    seq(|steps|, i requires 0 <= i < |steps| => RequestFor(d, ioctype, filetype, steps[i]))
  }

  /** The requests of the first `n + 1` steps: the first step's, then those of the next `n`. */
  lemma RequestsOfFirst(d: Downloader, ioctype: string, filetype: string, plan: seq<(string, string)>, n: nat)
    requires n < |plan|
    ensures RequestsOf(d, ioctype, filetype, plan[..n + 1])
      == [RequestFor(d, ioctype, filetype, plan[0])] + RequestsOf(d, ioctype, filetype, plan[1..][..n])
  {
    var lhs := RequestsOf(d, ioctype, filetype, plan[..n + 1]);
    var rhs := [RequestFor(d, ioctype, filetype, plan[0])] + RequestsOf(d, ioctype, filetype, plan[1..][..n]);
    forall i | 1 <= i < |lhs|
      ensures lhs[i] == rhs[i]
    {
      assert plan[1..][..n][i - 1] == plan[i];
    }
  }

  /**
   * A run sends, after those already `sent`, the requests of a prefix of
   * the plan: at least one step's when the plan is not empty.
   */
  lemma {:induction false} SentRequests(
    d: Downloader, ioctype: string, filetype: string, path: string, plan: seq<(string, string)>,
    sent: seq<Request>, get: Request -> Response, save: (string, seq<bv8>) -> Saving)
    ensures var s := Sent(d, ioctype, filetype, path, plan, sent, get, save);
      |sent| <= |s| <= |sent| + |plan| && (plan != [] ==> |s| > |sent|)
      && s == sent + RequestsOf(d, ioctype, filetype, plan[..|s| - |sent|])
    decreases |plan|
  {
    var s := Sent(d, ioctype, filetype, path, plan, sent, get, save);
    if plan == [] {
      assert RequestsOf(d, ioctype, filetype, plan[..0]) == [];
    } else {
      var req := RequestFor(d, ioctype, filetype, plan[0]);
      if StepOf(req, get(req), path, save).Continue? {
        SentRequests(d, ioctype, filetype, path, plan[1..], sent + [req], get, save);
        RequestsOfFirst(d, ioctype, filetype, plan, |s| - |sent| - 1);
        ConcatAssoc(sent, [req], RequestsOf(d, ioctype, filetype, plan[1..][..|s| - |sent| - 1]));
      } else {
        RequestsOfFirst(d, ioctype, filetype, plan, 0);
        assert RequestsOf(d, ioctype, filetype, plan[1..][..0]) == [];
      }
    }
  }

  /** The requests one call of `get_feed` issues. */
  function FeedRequests(
    d: Downloader, ioctype: string, path: string, filetype: string,
    get: Request -> Response, save: (string, seq<bv8>) -> Saving): seq<Request>
  {
    var dv := DateValue(d.timeRange);
    Sent(d, ioctype, filetype, TargetPath(path, ioctype, dv, filetype), Plan(Candidates(dv)), [], get, save)
  }

  /**
   * The first step of a run either ends it or leaves the rest of the plan
   * to run; either way its request is the first one sent.
   */
  lemma RunFirst(
    d: Downloader, ioctype: string, filetype: string, path: string, plan: seq<(string, string)>,
    rejected: seq<Attempt>, sent: seq<Request>, get: Request -> Response, save: (string, seq<bv8>) -> Saving)
    requires plan != []
    ensures var req := RequestFor(d, ioctype, filetype, plan[0]);
      var step := StepOf(req, get(req), path, save);
      (step.Stop? ==>
        Run(d, ioctype, filetype, path, plan, rejected, get, save) == step.result
        && Sent(d, ioctype, filetype, path, plan, sent, get, save) == sent + [req])
      && (step.Continue? ==>
        Run(d, ioctype, filetype, path, plan, rejected, get, save)
          == Run(d, ioctype, filetype, path, plan[1..], rejected + [step.attempt], get, save)
        && Sent(d, ioctype, filetype, path, plan, sent, get, save)
          == Sent(d, ioctype, filetype, path, plan[1..], sent + [req], get, save))
  {
  }

  /** Splitting the first pair off the remaining candidates of one parameter name. */
  lemma PairsFirst(name: string, candidates: seq<string>, j: nat, later: seq<(string, string)>)
    requires j < |candidates|
    ensures var rest := Pairs(name, candidates[j..]) + later;
      rest[0] == (name, candidates[j]) && rest[1..] == Pairs(name, candidates[j + 1..]) + later
  {
    var rest := Pairs(name, candidates[j..]) + later;
    assert Pairs(name, candidates[j..])[1..] == Pairs(name, candidates[j + 1..]);
    assert rest[1..] == Pairs(name, candidates[j..])[1..] + later;
  }

  // ---------------------------------------------------------------------
  // The downloader's loop

  /**
   * `get_feed`: the candidates built by appending, then the two nested
   * loops, returning at the first answer 200 or the first exception.
   */
  method GetFeed(
    d: Downloader, ioctype: string, path: string, filetype: string,
    get: Request -> Response, save: (string, seq<bv8>) -> Saving)
    returns (r: FeedResult, ghost sent: seq<Request>)
    ensures r == Feed(d, ioctype, path, filetype, get, save)
    ensures sent == FeedRequests(d, ioctype, path, filetype, get, save)
  {
    var dateValue := DateValue(d.timeRange);
    var dateCandidates := [dateValue];
    if EndsWith(dateValue, LatestSuffix) {
      dateCandidates := dateCandidates + [RemoveAll(dateValue, LatestSuffix)];
    }
    assert dateCandidates == Candidates(dateValue);
    var target := path;
    if target == "" {
      target := DefaultPath(ioctype, dateValue, filetype);
    }
    assert target == TargetPath(path, ioctype, dateValue, filetype);
    ghost var spec := Feed(d, ioctype, path, filetype, get, save);
    ghost var log := FeedRequests(d, ioctype, path, filetype, get, save);
    assert spec == Run(d, ioctype, filetype, target, Steps(ParamNames, dateCandidates), [], get, save);
    assert log == Sent(d, ioctype, filetype, target, Steps(ParamNames, dateCandidates), [], get, save);
    sent := [];
    assert ParamNames[0..] == ParamNames;
    var attempts: seq<Attempt> := [];
    var i := 0;
    while i < |ParamNames|
      invariant 0 <= i <= |ParamNames|
      invariant Run(d, ioctype, filetype, target, Steps(ParamNames[i..], dateCandidates), attempts, get, save) == spec
      invariant Sent(d, ioctype, filetype, target, Steps(ParamNames[i..], dateCandidates), sent, get, save) == log
    {
      var paramName := ParamNames[i];
      assert ParamNames[i..][1..] == ParamNames[i + 1..];
      ghost var later := Steps(ParamNames[i + 1..], dateCandidates);
      assert Steps(ParamNames[i..], dateCandidates) == Pairs(paramName, dateCandidates) + later;
      assert dateCandidates[0..] == dateCandidates;
      var j := 0;
      while j < |dateCandidates|
        invariant 0 <= j <= |dateCandidates|
        invariant Run(d, ioctype, filetype, target, Pairs(paramName, dateCandidates[j..]) + later, attempts, get, save) == spec
        invariant Sent(d, ioctype, filetype, target, Pairs(paramName, dateCandidates[j..]) + later, sent, get, save) == log
      {
        var candidate := dateCandidates[j];
        ghost var rest := Pairs(paramName, dateCandidates[j..]) + later;
        PairsFirst(paramName, dateCandidates, j, later);
        RunFirst(d, ioctype, filetype, target, rest, attempts, sent, get, save);
        var req := RequestFor(d, ioctype, filetype, (paramName, candidate));
        var response := get(req);
        sent := sent + [req];
        match StepOf(req, response, target, save)
        case Stop(result) =>
          return result, sent;
        case Continue(attempt) =>
          attempts := attempts + [attempt];
        j := j + 1;
      }
      assert Pairs(paramName, dateCandidates[j..]) + later == later;
      i := i + 1;
    }
    r := AllRejected(attempts);
  }

  // ---------------------------------------------------------------------
  // Properties of `get_feed`

  /** The requests of one call differ pairwise, so one call never asks the same thing twice. */
  lemma PlanStepsDistinct(candidates: seq<string>)
    requires forall a, b :: 0 <= a < b < |candidates| ==> candidates[a] != candidates[b]
    ensures var plan := Plan(candidates);
      forall a, b :: 0 <= a < b < |plan| ==> plan[a] != plan[b]
  {
    var plan := Plan(candidates);
    var n := |candidates|;
    forall a, b | 0 <= a < b < |plan|
      ensures plan[a] != plan[b]
    {
      if b < n {
        assert plan[a].1 == candidates[a] && plan[b].1 == candidates[b];
      } else if a >= n {
        assert plan[a].1 == candidates[a - n] && plan[b].1 == candidates[b - n];
      } else {
        assert plan[a].0 == "date";
        assert plan[n + (b - n)].0 == "period";
      }
    }
  }

  /**
   * The requests of one call differ pairwise: distinct steps give distinct
   * query parameters, so one call never asks the same thing twice.
   */
  lemma PlanRequestsDistinct(d: Downloader, ioctype: string, filetype: string, candidates: seq<string>)
    requires forall a, b :: 0 <= a < b < |candidates| ==> candidates[a] != candidates[b]
    ensures var rs := RequestsOf(d, ioctype, filetype, Plan(candidates));
      forall a, b :: 0 <= a < b < |rs| ==> rs[a] != rs[b]
  {
    var plan := Plan(candidates);
    var rs := RequestsOf(d, ioctype, filetype, plan);
    PlanStepsDistinct(candidates);
    forall a, b | 0 <= a < b < |rs|
      ensures rs[a] != rs[b]
    {
      ParamsDistinct(filetype, plan[a], plan[b]);
    }
  }

  /** Two different steps, each naming "date" or "period", give different parameters. */
  lemma ParamsDistinct(filetype: string, s: (string, string), t: (string, string))
    requires s != t && s.0 in ParamNames && t.0 in ParamNames
    ensures Params(filetype, s.0, s.1) != Params(filetype, t.0, t.1)
  {
    var p, q := Params(filetype, s.0, s.1), Params(filetype, t.0, t.1);
    assert s.0 != "type" && t.0 != "type";
    if s.0 == t.0 {
      assert p[s.0] == s.1 && q[t.0] == t.1;
    } else {
      assert s.0 in p && s.0 !in q;
    }
  }

  /** The candidates of one call are distinct. */
  lemma CandidatesDistinct(dv: string)
    ensures var c := Candidates(dv);
      forall a, b :: 0 <= a < b < |c| ==> c[a] != c[b]
  {
  }

  /** The rejection an attempt records, when it is rejected. */
  function RejectionOf(
    d: Downloader, ioctype: string, filetype: string, path: string, step: (string, string),
    get: Request -> Response, save: (string, seq<bv8>) -> Saving): Option<Attempt>
  {
    var req := RequestFor(d, ioctype, filetype, step);
    match StepOf(req, get(req), path, save)
    case Stop(_) => None
    case Continue(a) => Some(a)
  }

  /**
   * When every request is answered with a status other than 200, the
   * result lists one rejection per attempt, in attempt order.
   */
  lemma {:induction false} AllRejectedInOrder(
    d: Downloader, ioctype: string, filetype: string, path: string, plan: seq<(string, string)>,
    rejected: seq<Attempt>, get: Request -> Response, save: (string, seq<bv8>) -> Saving)
    requires forall k :: 0 <= k < |plan| ==> RejectionOf(d, ioctype, filetype, path, plan[k], get, save).Some?
    ensures var r := Run(d, ioctype, filetype, path, plan, rejected, get, save);
      r.AllRejected? && |r.attempts| == |rejected| + |plan| && r.attempts[..|rejected|] == rejected
      && forall k :: 0 <= k < |plan| ==>
        r.attempts[|rejected| + k] == RejectionOf(d, ioctype, filetype, path, plan[k], get, save).value
    decreases |plan|
  {
    if plan != [] {
      var first := RejectionOf(d, ioctype, filetype, path, plan[0], get, save).value;
      forall k | 0 <= k < |plan[1..]|
        ensures RejectionOf(d, ioctype, filetype, path, plan[1..][k], get, save).Some?
      {
        assert plan[1..][k] == plan[k + 1];
      }
      AllRejectedInOrder(d, ioctype, filetype, path, plan[1..], rejected + [first], get, save);
      var r := Run(d, ioctype, filetype, path, plan, rejected, get, save);
      assert r == Run(d, ioctype, filetype, path, plan[1..], rejected + [first], get, save);
      forall k | 0 <= k < |plan|
        ensures r.attempts[|rejected| + k] == RejectionOf(d, ioctype, filetype, path, plan[k], get, save).value
      {
        if k > 0 {
          assert plan[1..][k - 1] == plan[k];
        }
      }
      assert r.attempts[..|rejected|] == (rejected + [first])[..|rejected|];
    }
  }

  /** Every step of `plan` is rejected. */
  predicate EveryRejected(
    d: Downloader, ioctype: string, filetype: string, path: string, plan: seq<(string, string)>,
    get: Request -> Response, save: (string, seq<bv8>) -> Saving)
    decreases |plan|
  {
    plan != [] ==>
      RejectionOf(d, ioctype, filetype, path, plan[0], get, save).Some?
      && EveryRejected(d, ioctype, filetype, path, plan[1..], get, save)
  }

  /** When every request is rejected, every request of the plan is sent, in order. */
  lemma {:induction false} AllRejectedSendsAll(
    d: Downloader, ioctype: string, filetype: string, path: string, plan: seq<(string, string)>,
    sent: seq<Request>, get: Request -> Response, save: (string, seq<bv8>) -> Saving)
    requires EveryRejected(d, ioctype, filetype, path, plan, get, save)
    ensures Sent(d, ioctype, filetype, path, plan, sent, get, save) == sent + RequestsOf(d, ioctype, filetype, plan)
    decreases |plan|
  {
    if plan == [] {
      assert RequestsOf(d, ioctype, filetype, plan) == [];
    } else {
      var req := RequestFor(d, ioctype, filetype, plan[0]);
      var rest := RequestsOf(d, ioctype, filetype, plan[1..]);
      SentContinues(d, ioctype, filetype, path, plan, sent, get, save);
      AllRejectedSendsAll(d, ioctype, filetype, path, plan[1..], sent + [req], get, save);
      RequestsOfCons(d, ioctype, filetype, plan);
      ConcatAssoc(sent, [req], rest);
    }
  }

  /** Concatenation is associative: a proof step of `SentRequests` and `AllRejectedSendsAll`. */
  lemma ConcatAssoc<T>(a: seq<T>, b: seq<T>, c: seq<T>)
    ensures (a + b) + c == a + (b + c)
  {
  }

  /** The requests of a non-empty plan: the first step's, then the rest's. */
  lemma RequestsOfCons(d: Downloader, ioctype: string, filetype: string, plan: seq<(string, string)>)
    requires plan != []
    ensures RequestsOf(d, ioctype, filetype, plan)
      == [RequestFor(d, ioctype, filetype, plan[0])] + RequestsOf(d, ioctype, filetype, plan[1..])
  {
  }

  /** A rejected first step sends its request and goes on with the rest of the plan. */
  lemma SentContinues(
    d: Downloader, ioctype: string, filetype: string, path: string, plan: seq<(string, string)>,
    sent: seq<Request>, get: Request -> Response, save: (string, seq<bv8>) -> Saving)
    requires plan != [] && RejectionOf(d, ioctype, filetype, path, plan[0], get, save).Some?
    ensures Sent(d, ioctype, filetype, path, plan, sent, get, save)
      == Sent(d, ioctype, filetype, path, plan[1..], sent + [RequestFor(d, ioctype, filetype, plan[0])], get, save)
  {
  }

  /**
   * The attempt at position `k` that is the first not rejected decides the
   * result, and the requests sent are exactly those of the first `k + 1`
   * steps: nothing after it is requested.
   */
  lemma {:induction false} FirstStopDecides(
    d: Downloader, ioctype: string, filetype: string, path: string, plan: seq<(string, string)>,
    rejected: seq<Attempt>, sent: seq<Request>, get: Request -> Response, save: (string, seq<bv8>) -> Saving, k: nat)
    requires k < |plan|
    requires forall i :: 0 <= i < k ==> RejectionOf(d, ioctype, filetype, path, plan[i], get, save).Some?
    requires RejectionOf(d, ioctype, filetype, path, plan[k], get, save).None?
    ensures var req := RequestFor(d, ioctype, filetype, plan[k]);
      Run(d, ioctype, filetype, path, plan, rejected, get, save) == StepOf(req, get(req), path, save).result
    ensures Sent(d, ioctype, filetype, path, plan, sent, get, save)
      == sent + RequestsOf(d, ioctype, filetype, plan[..k + 1])
    decreases k
  {
    var req := RequestFor(d, ioctype, filetype, plan[0]);
    if k > 0 {
      var first := RejectionOf(d, ioctype, filetype, path, plan[0], get, save).value;
      forall i | 0 <= i < k - 1
        ensures RejectionOf(d, ioctype, filetype, path, plan[1..][i], get, save).Some?
      {
        assert plan[1..][i] == plan[i + 1];
      }
      assert plan[1..][k - 1] == plan[k];
      FirstStopDecides(d, ioctype, filetype, path, plan[1..], rejected + [first], sent + [req], get, save, k - 1);
      RequestsOfFirst(d, ioctype, filetype, plan, k);
    } else {
      RequestsOfFirst(d, ioctype, filetype, plan, 0);
      assert RequestsOf(d, ioctype, filetype, plan[1..][..0]) == [];
    }
  }

  /**
   * What a run can end in: a download to `path` answered with 200, a save
   * error answered with 200, a request error at the feed URL with the
   * parameters of one planned step, or one rejection (not 200) per step
   * after those already recorded.
   */
  lemma {:induction false} RunOutcomes(
    d: Downloader, ioctype: string, filetype: string, path: string, plan: seq<(string, string)>,
    rejected: seq<Attempt>, get: Request -> Response, save: (string, seq<bv8>) -> Saving)
    ensures var r := Run(d, ioctype, filetype, path, plan, rejected, get, save);
      (r.Downloaded? ==> r.path == path && r.code == 200)
      && (r.SaveError? ==> r.code == 200)
      && (r.RequestError? ==>
            r.url == FeedUrl(d, ioctype)
            && exists k :: 0 <= k < |plan| && r.params == Params(filetype, plan[k].0, plan[k].1))
      && (r.AllRejected? ==>
            |r.attempts| == |rejected| + |plan| && r.attempts[..|rejected|] == rejected
            && forall i :: |rejected| <= i < |r.attempts| ==> r.attempts[i].code != 200)
    decreases |plan|
  {
    if plan != [] {
      var req := RequestFor(d, ioctype, filetype, plan[0]);
      var st := StepOf(req, get(req), path, save);
      if st.Continue? {
        RunOutcomes(d, ioctype, filetype, path, plan[1..], rejected + [st.attempt], get, save);
        var r := Run(d, ioctype, filetype, path, plan, rejected, get, save);
        if r.RequestError? {
          var k :| 0 <= k < |plan[1..]| && r.params == Params(filetype, plan[1..][k].0, plan[1..][k].1);
          assert plan[1..][k] == plan[k + 1];
        }
        if r.AllRejected? {
          assert r.attempts[|rejected|] == st.attempt;
          assert r.attempts[..|rejected|] == (rejected + [st.attempt])[..|rejected|];
        }
      }
    }
  }

  /**
   * What `get_feed` returns: "ok" with the target path and 200, a save
   * error with 200, a request error at the feed URL, or one rejection
   * (not 200) per planned request.
   */
  lemma FeedOutcomes(
    d: Downloader, ioctype: string, path: string, filetype: string,
    get: Request -> Response, save: (string, seq<bv8>) -> Saving)
    ensures var dv := DateValue(d.timeRange);
      var r := Feed(d, ioctype, path, filetype, get, save);
      (r.Status() == "ok" <==> r.Downloaded?)
      && (r.Downloaded? ==> r.path == TargetPath(path, ioctype, dv, filetype) && r.code == 200)
      && (r.SaveError? ==> r.code == 200)
      && (r.RequestError? ==> r.url == FeedUrl(d, ioctype))
      && (r.AllRejected? ==>
            |r.attempts| == 2 * |Candidates(dv)|
            && forall i :: 0 <= i < |r.attempts| ==> r.attempts[i].code != 200)
  {
    var dv := DateValue(d.timeRange);
    RunOutcomes(d, ioctype, filetype, TargetPath(path, ioctype, dv, filetype), Plan(Candidates(dv)), [], get, save);
  }

  /**
   * A call in which every request is rejected reports exactly two
   * rejections per candidate: the "date" ones, then the "period" ones.
   */
  lemma AllRejectedCount(
    d: Downloader, ioctype: string, path: string, filetype: string,
    get: Request -> Response, save: (string, seq<bv8>) -> Saving)
    requires forall req :: get(req).Answered? && get(req).status != 200
    ensures var r := Feed(d, ioctype, path, filetype, get, save);
      r.AllRejected? && |r.attempts| == 2 * |Candidates(DateValue(d.timeRange))|
  {
    var dv := DateValue(d.timeRange);
    var plan := Plan(Candidates(dv));
    var target := TargetPath(path, ioctype, dv, filetype);
    forall k | 0 <= k < |plan|
      ensures RejectionOf(d, ioctype, filetype, target, plan[k], get, save).Some?
    {
      var req := RequestFor(d, ioctype, filetype, plan[k]);
      assert get(req).Answered? && get(req).status != 200;
    }
    AllRejectedInOrder(d, ioctype, filetype, target, plan, [], get, save);
  }

  /** A first request that raises ends the call with that request's URL and parameters. */
  lemma FirstRaiseStops(
    d: Downloader, ioctype: string, path: string, filetype: string,
    get: Request -> Response, save: (string, seq<bv8>) -> Saving)
    requires var dv := DateValue(d.timeRange);
      get(RequestFor(d, ioctype, filetype, ("date", dv))).Raised?
    ensures var dv := DateValue(d.timeRange);
      Feed(d, ioctype, path, filetype, get, save) == RequestError(
        get(RequestFor(d, ioctype, filetype, ("date", dv))).message,
        FeedUrl(d, ioctype), map["type" := filetype, "date" := dv])
  {
    var dv := DateValue(d.timeRange);
    var plan := Plan(Candidates(dv));
    assert plan[0] == ("date", dv);
  }

  /** An hourly range tries "1h_latest" and then "1h". */
  lemma HourlyCandidates()
    ensures Candidates(DateValue("1h")) == ["1h_latest", "1h"]
  {
    var dv := DateValue("1h");
    assert dv == "1h" + LatestSuffix;
    forall i | 0 <= i < |"1h"|
      ensures !OccursAt("1h" + LatestSuffix, LatestSuffix, i)
    {
      assert ("1h" + LatestSuffix)[i..i + |LatestSuffix|][0] != LatestSuffix[0];
    }
    RemoveAllSuffix("1h", LatestSuffix);
  }

  /** The "latest" range has a single candidate. */
  lemma LatestSingleCandidate()
    ensures Candidates(DateValue("latest")) == ["latest"]
    ensures Candidates(DateValue("day")) == ["latest"]
  {
    assert !EndsWith("latest", LatestSuffix);
  }
}

=== FILE: list_codec.dfy ===
/**
 * The `ListFromString` field type of the MISP connector's settings:
 * a comma-separated string read as a list of strings on the way in
 * (`comma_separated_list_validator`), and a list written back as one
 * comma-joined string on the way out, in the "pycti" dump mode only
 * (`pycti_list_serializer`).
 */
module ListCodec {
  import opened Wrappers
  import opened Values
  import opened Text

  /** `t` is `piece` with whitespace removed from both ends, and nothing else. */
  ghost predicate TrimmedFrom(piece: string, t: string) {
    Stripped(t)
    && exists i, j :: 0 <= i <= j <= |piece| && AllSpace(piece[..i]) && AllSpace(piece[j..]) && t == piece[i..j]
  }

  /**
   * The list a string denotes: the empty string denotes the empty list;
   * any other string one element per comma-separated piece, in order, each
   * trimmed of surrounding whitespace.
   */
  function SplitCommaList(s: string): (r: seq<string>)
    ensures s == "" ==> r == []
    ensures s != "" ==> |r| == Count(s, ',') + 1
    ensures s != "" ==> forall k :: 0 <= k < |r| ==> TrimmedFrom(Split(s, ',')[k], r[k])
  {
    if |s| == 0 then []
    else
      var pieces := Split(s, ',');
      seq(|pieces|, k requires 0 <= k < |pieces| => Strip(pieces[k]))
  }

  function AsValues(items: seq<string>): (r: seq<Value>)
    ensures |r| == |items| && forall k :: 0 <= k < |r| ==> r[k] == VStr(items[k])
  {
    seq(|items|, k requires 0 <= k < |items| => VStr(items[k]))
  }

  /**
   * `comma_separated_list_validator`: a string becomes the list it
   * denotes; any other value, a list in particular, is returned unchanged.
   */
  function CommaListValidator(v: Value): (r: Value)
    ensures v == VStr("") ==> r == VList([])
    ensures !v.VStr? ==> r == v
    ensures v.VStr? && v.s != "" ==>
      r.VList? && |r.items| == Count(v.s, ',') + 1
      && forall k :: 0 <= k < |r.items| ==> r.items[k].VStr? && TrimmedFrom(Split(v.s, ',')[k], r.items[k].s)
  {
    match v
    case VStr(s) => VList(AsValues(SplitCommaList(s)))
    case _ => v
  }

  /** `model_dump` modes: "python" keeps native values, "json" renders them. */
  datatype DumpMode = PythonMode | JsonMode

  /** What the serializer hands back for a list field. */
  datatype Serialized = Joined(text: string) | Unjoined(items: seq<string>)

  /** The serialization context asks for the pycti shape: `context and context.get("mode") == "pycti"`. */
  predicate PyctiContext(context: Option<map<string, string>>) {
    context.Some? && "mode" in context.value && context.value["mode"] == "pycti"
  }

  /**
   * `pycti_list_serializer`, registered for JSON dumps only: a list is
   * joined with "," exactly when the dump is in JSON mode and the context
   * asks for pycti; otherwise it is left as the list it is.
   */
  function SerializeList(items: seq<string>, mode: DumpMode, context: Option<map<string, string>>): (r: Serialized)
    ensures r.Joined? <==> mode == JsonMode && PyctiContext(context)
    ensures r.Unjoined? ==> r.items == items
    ensures r.Joined? ==> r.text == Join(items, ',')
    ensures r.Joined? && items == [] ==> r.text == ""
    ensures r.Joined? && items != [] && (forall k :: 0 <= k < |items| ==> ',' !in items[k]) ==>
      Split(r.text, ',') == items
  {
    if mode == JsonMode && PyctiContext(context) then
      var text := Join(items, ',');
      assert items != [] && (forall k :: 0 <= k < |items| ==> ',' !in items[k]) ==> Split(text, ',') == items by {
        if items != [] && (forall k :: 0 <= k < |items| ==> ',' !in items[k]) {
          SplitJoin(items, ',');
        }
      }
      Joined(text)
    else Unjoined(items)
  }

  /** The context `model_dump_pycti` passes. */
  const PyctiDumpContext: Option<map<string, string>> := Some(map["mode" := "pycti"])

  /** A list that survives a pycti dump and a reload: no commas, no surrounding whitespace. */
  predicate PlainItems(items: seq<string>) {
    forall k :: 0 <= k < |items| ==> ',' !in items[k] && Stripped(items[k])
  }

  /**
   * Round trip: reading back the comma-joined string of a list of plain
   * items gives the list, except `[""]`, which comes back empty.
   */
  lemma SplitCommaListOfJoin(items: seq<string>)
    requires PlainItems(items)
    ensures SplitCommaList(Join(items, ',')) == if items == [""] then [] else items
  {
    JoinEmpty(items, ',');
    if items != [] && items != [""] {
      var s := Join(items, ',');
      SplitJoin(items, ',');
      var r := SplitCommaList(s);
      forall k | 0 <= k < |items|
        ensures r[k] == items[k]
      {
        assert r[k] == Strip(Split(s, ',')[k]);
      }
    }
  }

  /**
   * The pycti dump of a list field, fed back to the validator, yields the
   * same list (again with `[""]` as the one exception).
   */
  lemma PyctiDumpReloads(items: seq<string>)
    requires PlainItems(items)
    ensures var d := SerializeList(items, JsonMode, PyctiDumpContext);
      d.Joined? && CommaListValidator(VStr(d.text)) == VList(AsValues(if items == [""] then [] else items))
  {
    var m := map["mode" := "pycti"];
    assert "mode" in m && m != map[];
    assert PyctiContext(PyctiDumpContext);
    SplitCommaListOfJoin(items);
  }
}

=== FILE: migration.dfy ===
/**
 * `migrate_deprecated_interval`: the "before" validator that rewrites the
 * legacy `misp.interval` (minutes) into `connector.duration_period` by
 * editing the raw settings dictionary in place.
 */
module Migration {
  import opened Wrappers
  import opened Values

  /**
   * The exception the migration raises: `int(interval)` rejected the
   * interval, or the minutes are beyond what a `timedelta` can hold.
   */
  datatype MigrationError = NotAnInteger(error: IntError) | Overflow(minutes: int)

  /**
   * The state the migration leaves behind: the raw data, whether the
   * deprecation warning was issued, and the exception raised, if any (the
   * raw data has already been edited when that happens).
   */
  datatype Migrated = Migrated(data: RawData, warned: bool, error: Option<MigrationError>)

  /** `misp_data.pop("interval", None)` applied to the `misp` section, when there is one. */
  function PopInterval(data: RawData): (r: RawData)
    ensures r.Keys == data.Keys
    ensures "misp" in data ==> r["misp"] == data["misp"] - {"interval"}
    ensures forall s :: s in data && s != "misp" ==> r[s] == data[s]
  {
    if "misp" in data then data["misp" := data["misp"] - {"interval"}] else data
  }

  /** The value the pop hands back: the interval, or None when the key (or the section) is absent. */
  function Interval(data: RawData): Value {
    if "misp" in data && "interval" in data["misp"] then data["misp"]["interval"] else VNone
  }

  /**
   * The migration as a function of the raw data. The interval is always
   * popped from a present `misp` section. A truthy interval issues the
   * warning and is read with `int(...)`; when that succeeds and the
   * minutes fit a `timedelta`, the `connector` section's `duration_period`
   * becomes that many minutes, overwriting any value it had. No section is ever created: without a `connector`
   * section the write lands in a throw-away dictionary and is lost.
   */
  function Migrate(data: RawData): (r: Migrated)
    ensures r.data.Keys == data.Keys
    ensures "misp" in data ==> r.data["misp"] == data["misp"] - {"interval"}
    ensures r.warned <==> Truthy(Interval(data))
    ensures r.error.Some? <==>
      Truthy(Interval(data)) && (IntOf(Interval(data)).Failure? || !MinutesInRange(IntOf(Interval(data)).value))
    ensures r.error.Some? && IntOf(Interval(data)).Failure? ==> r.error.value == NotAnInteger(IntOf(Interval(data)).error)
    ensures r.error.Some? && IntOf(Interval(data)).Success? ==> r.error.value == Overflow(IntOf(Interval(data)).value)
    ensures "connector" in data ==>
      r.data["connector"] ==
        if Truthy(Interval(data)) && IntOf(Interval(data)).Success? && MinutesInRange(IntOf(Interval(data)).value)
        then data["connector"]["duration_period" := VDuration(IntOf(Interval(data)).value * MicrosPerMinute)]
        else data["connector"]
    ensures "connector" !in data ==> r.data == PopInterval(data)
    ensures forall s :: s in data && s != "misp" && s != "connector" ==> r.data[s] == data[s]
  {
    var interval := Interval(data);
    var popped := PopInterval(data);
    if !Truthy(interval) then Migrated(popped, false, None)
    else match IntOf(interval)
      case Failure(e) => Migrated(popped, true, Some(NotAnInteger(e)))
      case Success(minutes) =>
        if !MinutesInRange(minutes) then Migrated(popped, true, Some(Overflow(minutes)))
        else if "connector" in data then
          var connector := data["connector"]["duration_period" := VDuration(minutes * MicrosPerMinute)];
          Migrated(popped["connector" := connector], true, None)
        else Migrated(popped, true, None)
  }

  /** An interval of a billion days or more is beyond `timedelta` and fails the migration. */
  lemma HugeIntervalOverflows(data: RawData)
    requires "misp" in data && "interval" in data["misp"]
    requires data["misp"]["interval"] == VInt(MinutesPerDay * (MaxTimedeltaDays + 1))
    ensures Migrate(data).error == Some(Overflow(MinutesPerDay * (MaxTimedeltaDays + 1)))
    ensures Migrate(data).warned
  {
  }

  /** After the migration no `interval` is left to migrate. */
  lemma IntervalGone(data: RawData)
    ensures Interval(Migrate(data).data) == VNone
  {
    if "misp" in data {
      assert "interval" !in Migrate(data).data["misp"];
    }
  }

  /** A second run changes nothing and warns no more. */
  lemma MigrateIdempotent(data: RawData)
    ensures var once := Migrate(data).data;
      Migrate(once) == Migrated(once, false, None)
  {
    var once := Migrate(data).data;
    IntervalGone(data);
    var twice := Migrate(once).data;
    if "misp" in once {
      assert "interval" !in once["misp"];
      assert once["misp"] - {"interval"} == once["misp"];
    }
    assert twice == once;
  }

  /**
   * The mutable raw settings dictionary the validator receives: section
   * name to section.
   */
  class RawConfig {
    var sections: RawData

    constructor (data: RawData)
      ensures sections == data
    {
      sections := data;
    }

    /**
     * The validator's body, editing `sections` in place. It returns whether
     * the deprecation warning was issued and the exception raised.
     */
    method MigrateDeprecatedInterval() returns (warned: bool, error: Option<MigrationError>)
      modifies this
      ensures Migrated(sections, warned, error) == Migrate(old(sections))
    {
      var interval := VNone;
      if "misp" in sections {
        var mispData := sections["misp"];
        if "interval" in mispData {
          interval := mispData["interval"];
        }
        sections := sections["misp" := mispData - {"interval"}];
      }
      warned, error := false, None;
      if Truthy(interval) {
        warned := true;
        var minutes := IntOf(interval);
        if minutes.Failure? {
          error := Some(NotAnInteger(minutes.error));
          return;
        }
        if !MinutesInRange(minutes.value) {
          error := Some(Overflow(minutes.value));
          return;
        }
        if "connector" in sections {
          var connectorData := sections["connector"];
          sections := sections["connector" := connectorData["duration_period" := VDuration(minutes.value * MicrosPerMinute)]];
        }
      }
    }
  }
}

=== FILE: schema.dfy ===
/**
 * The frozen section models of the MISP connector's settings:
 * `_OpenCTIConfig`, `_ConnectorConfig` and `_MISPConfig`. Each section is
 * read from its raw field map all at once: every field is coerced to its
 * declared type, omitted optional fields take their declared defaults,
 * unknown fields are kept aside, and one missing or invalid field makes the
 * whole section fail with the list of every field error found.
 */
module Schema {
  import opened Wrappers
  import opened Values
  import ListCodec
  import Timestamps

  /**
   * Coercions the settings library performs and the model cannot see: the
   * lax readings of a bool, an int and a timedelta from strings and numbers,
   * `HttpUrl` validation, and `AwareDatetime` from a value that is neither a
   * string nor a datetime. Native values of the declared type are handled
   * by the model itself.
   */
  datatype Coercions = Coercions(
    looseBool: Value -> Option<bool>,
    looseInt: Value -> Option<int>,
    looseDuration: Value -> Option<int>,
    httpUrl: string -> Option<string>,
    looseAware: Value -> Option<Timestamps.AwareReading>,
    parsers: Timestamps.Parsers)

  datatype ErrorKind = Missing | Invalid

  /** One field-level failure, located by section and field name. */
  datatype FieldError = FieldError(loc: seq<string>, kind: ErrorKind)

  type Read<T> = Result<T, FieldError>

  // ---------------------------------------------------------------------
  // Field types

  function AsStr(v: Value): Option<string> {
    if v.VStr? then Some(v.s) else None
  }

  function AsBool(co: Coercions, v: Value): Option<bool> {
    match v
    case VBool(b) => Some(b)
    case VStr(_) => co.looseBool(v)
    case VInt(_) => co.looseBool(v)
    case _ => None
  }

  function AsInt(co: Coercions, v: Value): Option<int> {
    match v
    case VInt(i) => Some(i)
    case VStr(_) => co.looseInt(v)
    case VBool(_) => co.looseInt(v)
    case _ => None
  }

  /** A `timedelta`, in microseconds. */
  function AsDuration(co: Coercions, v: Value): Option<int> {
    match v
    case VDuration(d) => Some(d)
    case VStr(_) => co.looseDuration(v)
    case VInt(_) => co.looseDuration(v)
    case _ => None
  }

  function AsHttpUrl(co: Coercions, v: Value): Option<string> {
    if v.VStr? then co.httpUrl(v.s) else None
  }

  function AsDict(v: Value): Option<map<string, Value>> {
    if v.VMap? then Some(v.entries) else None
  }

  predicate AllStrings(items: seq<Value>) {
    forall k :: 0 <= k < |items| ==> items[k].VStr?
  }

  /** The strings inside a list of string values. */
  function StrItems(items: seq<Value>): (r: seq<string>)
    requires AllStrings(items)
    ensures ListCodec.AsValues(r) == items
  {
    if items == [] then []
    else
      var r := [items[0].s] + StrItems(items[1..]);
      assert ListCodec.AsValues(r) == [items[0]] + items[1..];
      r
  }

  /** `ListFromString`: the comma-list validator, then a check for a list of strings. */
  function AsStrList(v: Value): (r: Option<seq<string>>)
    ensures v.VStr? ==> r == Some(ListCodec.SplitCommaList(v.s))
    ensures v.VList? ==> (r.Some? <==> AllStrings(v.items))
    ensures v.VList? && r.Some? ==> ListCodec.AsValues(r.value) == v.items
    ensures !v.VStr? && !v.VList? ==> r.None?
  {
    var w := ListCodec.CommaListValidator(v);
    if w.VList? && AllStrings(w.items) then
      var r := StrItems(w.items);
      assert v.VStr? ==> r == ListCodec.SplitCommaList(v.s) by {
        if v.VStr? {
          var l := ListCodec.SplitCommaList(v.s);
          assert ListCodec.AsValues(r) == ListCodec.AsValues(l);
          assert |r| == |l|;
          forall k | 0 <= k < |r| ensures r[k] == l[k] {
            assert ListCodec.AsValues(r)[k] == VStr(r[k]);
          }
        }
      }
      Some(r)
    else None
  }

  /** `SafeAwareDatetime`: the timestamp normaliser, then an aware-datetime check. */
  function AsAwareDatetime(co: Coercions, v: Value): (r: Option<DateTime>)
    ensures r.Some? ==> r.value.Aware()
    ensures v.VDateTime? || v.VStr? ==>
      (r.Some? <==> Timestamps.SafeAwareDatetime(v, co.parsers).Success?)
    ensures (v.VDateTime? || v.VStr?) && r.Some? ==>
      Timestamps.SafeAwareDatetime(v, co.parsers) == Success(VDateTime(r.value))
    ensures v.VDateTime? ==>
      r.Some? && r.value.offset == Some(0) && (v.dt.Aware() ==> r.value.Instant() == v.dt.Instant())
    ensures !v.VDateTime? && !v.VStr? ==> (r.Some? <==> co.looseAware(v).Some?)
  {
    match Timestamps.SafeAwareDatetime(v, co.parsers)
    case Failure(_) => None
    case Success(w) =>
      if w.VDateTime? then (if w.dt.Aware() then Some(w.dt) else None)
      else
        (match co.looseAware(w)
         case Some(a) => Some(DateTime(a.wall, Some(a.offset)))
         case None => None)
  }

  datatype LogLevel = Debug | Info | Warning | Error | Critical

  /** `Literal["debug", "info", "warning", "error", "critical"]`. */
  function AsLogLevel(v: Value): (r: Option<LogLevel>)
    ensures r.Some? <==> v in {VStr("debug"), VStr("info"), VStr("warning"), VStr("error"), VStr("critical")}
  {
    if v == VStr("debug") then Some(Debug)
    else if v == VStr("info") then Some(Info)
    else if v == VStr("warning") then Some(Warning)
    else if v == VStr("error") then Some(Error)
    else if v == VStr("critical") then Some(Critical)
    else None
  }

  datatype ConnectorType = ExternalImport

  /** `Literal["EXTERNAL_IMPORT"]`. */
  function AsConnectorType(v: Value): Option<ConnectorType> {
    if v == VStr("EXTERNAL_IMPORT") then Some(ExternalImport) else None
  }

  /** `Optional[T]`: an explicit null is accepted as None. */
  function Nullable<T>(v: Value, read: Option<T>): Option<Option<T>> {
    if v.VNone? then Some(None)
    else match read
      case Some(x) => Some(Some(x))
      case None => None
  }

  function OptBool(co: Coercions, v: Value): Option<Option<bool>> { Nullable(v, AsBool(co, v)) }
  function OptStr(v: Value): Option<Option<string>> { Nullable(v, AsStr(v)) }
  function OptStrList(v: Value): Option<Option<seq<string>>> { Nullable(v, AsStrList(v)) }

  // ---------------------------------------------------------------------
  // Field readers

  /** A field declared without a default. */
  function Required<T>(section: string, raw: Section, name: string, coerce: Value -> Option<T>): (r: Read<T>)
    ensures name !in raw ==> r == Failure(FieldError([section, name], Missing))
    ensures name in raw ==> (r.Success? <==> coerce(raw[name]).Some?)
    ensures name in raw && r.Success? ==> r.value == coerce(raw[name]).value
    ensures name in raw && r.Failure? ==> r.error == FieldError([section, name], Invalid)
  {
    if name !in raw then Failure(FieldError([section, name], Missing))
    else match coerce(raw[name])
      case Some(x) => Success(x)
      case None => Failure(FieldError([section, name], Invalid))
  }

  /** A field declared with a default; the default is taken as is when the field is omitted. */
  function Defaulted<T>(section: string, raw: Section, name: string, coerce: Value -> Option<T>, default: T): (r: Read<T>)
    ensures name !in raw ==> r == Success(default)
    ensures name in raw ==> (r.Success? <==> coerce(raw[name]).Some?)
    ensures name in raw && r.Success? ==> r.value == coerce(raw[name]).value
    ensures name in raw && r.Failure? ==> r.error == FieldError([section, name], Invalid)
  {
    if name !in raw then Success(default)
    else match coerce(raw[name])
      case Some(x) => Success(x)
      case None => Failure(FieldError([section, name], Invalid))
  }

  function Errs<T>(r: Read<T>): (e: seq<FieldError>)
    ensures e == [] <==> r.Success?
  {
    if r.Failure? then [r.error] else []
  }

  /** The value given for `name`, if any, has the field's type. */
  predicate Fits<T>(raw: Section, name: string, coerce: Value -> Option<T>) {
    name in raw ==> coerce(raw[name]).Some?
  }

  /** The value given for `name`, if any, reads as `x`. */
  predicate ReadAs<T(==)>(raw: Section, name: string, coerce: Value -> Option<T>, x: T) {
    name in raw ==> coerce(raw[name]) == Some(x)
  }

  /** A section read failed and reported field `name` as invalid. */
  predicate Reported<C>(r: Result<C, seq<FieldError>>, section: string, name: string) {
    r.Failure? && FieldError([section, name], Invalid) in r.error
  }

  /** The fields a section does not declare, kept as they are (`extra="allow"`). */
  function Extras(raw: Section, declared: set<string>): (e: Section)
    ensures forall f :: f in e <==> f in raw && f !in declared
    ensures forall f :: f in e ==> e[f] == raw[f]
  {
    map f | f in raw && f !in declared :: raw[f]
  }

  // ---------------------------------------------------------------------
  // Section `opencti`

  datatype OpenCTIConfig = OpenCTIConfig(url: string, token: string, jsonLogging: bool, sslVerify: bool, extra: Section)

  const OpenCTIFields: set<string> := {"url", "token", "json_logging", "ssl_verify"}

  function ParseOpenCTI(raw: Section, co: Coercions): (r: Result<OpenCTIConfig, seq<FieldError>>)
    ensures r.Success? ==> "url" in raw && "token" in raw
    ensures r.Success? ==> ("json_logging" !in raw ==> r.value.jsonLogging)
    ensures r.Success? ==> ("ssl_verify" !in raw ==> !r.value.sslVerify)
    ensures r.Success? ==> r.value.extra == Extras(raw, OpenCTIFields)
    ensures r.Failure? ==> r.error != []
    ensures "url" !in raw ==> r.Failure? && FieldError(["opencti", "url"], Missing) in r.error
    ensures "token" !in raw ==> r.Failure? && FieldError(["opencti", "token"], Missing) in r.error
  {
    var s := "opencti";
    var url := Required(s, raw, "url", v => AsHttpUrl(co, v));
    var token := Required(s, raw, "token", AsStr);
    var jsonLogging := Defaulted(s, raw, "json_logging", v => AsBool(co, v), true);
    var sslVerify := Defaulted(s, raw, "ssl_verify", v => AsBool(co, v), false);
    var errs :=
      Errs(url) + Errs(token) + Errs(jsonLogging) + Errs(sslVerify);
    if errs == [] then
      Success(OpenCTIConfig(url.value, token.value, jsonLogging.value, sslVerify.value, Extras(raw, OpenCTIFields)))
    else
      Failure(errs)
  }

  /** `url` and `token` are given and every `opencti` field given has the field's type. */
  predicate OpenCTIFieldsValid(raw: Section, co: Coercions) {
    "url" in raw && Fits(raw, "url", v => AsHttpUrl(co, v))
    && "token" in raw && Fits(raw, "token", AsStr)
    && Fits(raw, "json_logging", v => AsBool(co, v))
    && Fits(raw, "ssl_verify", v => AsBool(co, v))
  }

  /** The `opencti` section is read exactly when its fields are valid. */
  lemma OpenCTIReads(raw: Section, co: Coercions)
    ensures ParseOpenCTI(raw, co).Success? <==> OpenCTIFieldsValid(raw, co)
  {
    OpenCTIInvalidReported(raw, co);
  }

  /** Each `opencti` field given with a value of the wrong type is reported at its location. */
  lemma OpenCTIInvalidReported(raw: Section, co: Coercions)
    ensures var p, s := ParseOpenCTI(raw, co), "opencti";
      (!Fits(raw, "url", v => AsHttpUrl(co, v)) ==> Reported(p, s, "url"))
      && (!Fits(raw, "token", AsStr) ==> Reported(p, s, "token"))
      && (!Fits(raw, "json_logging", v => AsBool(co, v)) ==> Reported(p, s, "json_logging"))
      && (!Fits(raw, "ssl_verify", v => AsBool(co, v)) ==> Reported(p, s, "ssl_verify"))
  {
    var p, s := ParseOpenCTI(raw, co), "opencti";
    if !Fits(raw, "url", v => AsHttpUrl(co, v)) {
      assert Reported(p, s, "url");
    }
    if !Fits(raw, "token", AsStr) {
      assert Reported(p, s, "token");
    }
    if !Fits(raw, "json_logging", v => AsBool(co, v)) {
      assert Reported(p, s, "json_logging");
    }
    if !Fits(raw, "ssl_verify", v => AsBool(co, v)) {
      assert Reported(p, s, "ssl_verify");
    }
  }

  /** The `opencti` fields of a read section are the values given. */
  lemma OpenCTIValues(raw: Section, co: Coercions)
    ensures var p := ParseOpenCTI(raw, co);
      p.Success? ==>
        ReadAs(raw, "url", v => AsHttpUrl(co, v), p.value.url)
        && ReadAs(raw, "token", AsStr, p.value.token)
        && ReadAs(raw, "json_logging", v => AsBool(co, v), p.value.jsonLogging)
        && ReadAs(raw, "ssl_verify", v => AsBool(co, v), p.value.sslVerify)
  {
  }

  // ---------------------------------------------------------------------
  // Section `connector`

  datatype ConnectorConfig = ConnectorConfig(
    id: string,
    name: string,
    connectorType: ConnectorType,
    scope: seq<string>,
    durationPeriod: int,   // microseconds
    logLevel: LogLevel,
    auto: bool,
    exposeMetrics: bool,
    metricsPort: int,
    onlyContextual: bool,
    runAndTerminate: bool,
    validateBeforeImport: bool,
    queueProtocol: string,
    queueThreshold: int,
    sendToQueue: bool,
    sendToDirectory: bool,
    sendToDirectoryPath: Option<string>,
    sendToDirectoryRetention: int,
    extra: Section)

  const ConnectorFields: set<string> := {
    "id", "name", "type", "scope", "duration_period", "log_level", "auto", "expose_metrics",
    "metrics_port", "only_contextual", "run_and_terminate", "validate_before_import",
    "queue_protocol", "queue_threshold", "send_to_queue", "send_to_directory",
    "send_to_directory_path", "send_to_directory_retention"}

  /** The default run period: five minutes. */
  const DefaultDurationPeriod: int := 5 * MicrosPerMinute

  function ParseConnector(raw: Section, co: Coercions): (r: Result<ConnectorConfig, seq<FieldError>>)
    ensures r.Success? ==> "id" in raw && "name" in raw
    ensures r.Success? ==> r.value.extra == Extras(raw, ConnectorFields)
    ensures r.Failure? ==> r.error != []
    ensures "id" !in raw ==> r.Failure? && FieldError(["connector", "id"], Missing) in r.error
    ensures "name" !in raw ==> r.Failure? && FieldError(["connector", "name"], Missing) in r.error
  {
    var s := "connector";
    var id := Required(s, raw, "id", AsStr);
    var name := Required(s, raw, "name", AsStr);
    var connectorType := Defaulted(s, raw, "type", AsConnectorType, ExternalImport);
    var scope := Defaulted(s, raw, "scope", AsStrList, ["misp"]);
    var durationPeriod := Defaulted(s, raw, "duration_period", v => AsDuration(co, v), DefaultDurationPeriod);
    var logLevel := Defaulted(s, raw, "log_level", AsLogLevel, Error);
    var auto := Defaulted(s, raw, "auto", v => AsBool(co, v), false);
    var exposeMetrics := Defaulted(s, raw, "expose_metrics", v => AsBool(co, v), false);
    var metricsPort := Defaulted(s, raw, "metrics_port", v => AsInt(co, v), 9095);
    var onlyContextual := Defaulted(s, raw, "only_contextual", v => AsBool(co, v), false);
    var runAndTerminate := Defaulted(s, raw, "run_and_terminate", v => AsBool(co, v), false);
    var validateBeforeImport := Defaulted(s, raw, "validate_before_import", v => AsBool(co, v), false);
    var queueProtocol := Defaulted(s, raw, "queue_protocol", AsStr, "amqp");
    var queueThreshold := Defaulted(s, raw, "queue_threshold", v => AsInt(co, v), 500);
    var sendToQueue := Defaulted(s, raw, "send_to_queue", v => AsBool(co, v), true);
    var sendToDirectory := Defaulted(s, raw, "send_to_directory", v => AsBool(co, v), false);
    var sendToDirectoryPath := Defaulted(s, raw, "send_to_directory_path", OptStr, None);
    var sendToDirectoryRetention := Defaulted(s, raw, "send_to_directory_retention", v => AsInt(co, v), 7);
    var errs :=
      (Errs(id) + Errs(name) + Errs(connectorType) + Errs(scope) + Errs(durationPeriod) + Errs(logLevel))
      + (Errs(auto) + Errs(exposeMetrics) + Errs(metricsPort) + Errs(onlyContextual)
         + Errs(runAndTerminate) + Errs(validateBeforeImport))
      + (Errs(queueProtocol) + Errs(queueThreshold) + Errs(sendToQueue) + Errs(sendToDirectory)
         + Errs(sendToDirectoryPath) + Errs(sendToDirectoryRetention));
    if errs == [] then
      assert "type" in raw ==> AsConnectorType(raw["type"]).Some?;
      Success(ConnectorConfig(
        id.value, name.value, connectorType.value, scope.value, durationPeriod.value, logLevel.value,
        auto.value, exposeMetrics.value, metricsPort.value, onlyContextual.value, runAndTerminate.value,
        validateBeforeImport.value, queueProtocol.value, queueThreshold.value, sendToQueue.value,
        sendToDirectory.value, sendToDirectoryPath.value, sendToDirectoryRetention.value,
        Extras(raw, ConnectorFields)))
    else
      Failure(errs)
  }

  /** `id` and `name` are given and every `connector` field given has the field's type. */
  predicate ConnectorFieldsValid(raw: Section, co: Coercions) {
    "id" in raw && Fits(raw, "id", AsStr)
    && "name" in raw && Fits(raw, "name", AsStr)
    && Fits(raw, "type", AsConnectorType)
    && Fits(raw, "scope", AsStrList)
    && Fits(raw, "duration_period", v => AsDuration(co, v))
    && Fits(raw, "log_level", AsLogLevel)
    && Fits(raw, "auto", v => AsBool(co, v))
    && Fits(raw, "expose_metrics", v => AsBool(co, v))
    && Fits(raw, "metrics_port", v => AsInt(co, v))
    && Fits(raw, "only_contextual", v => AsBool(co, v))
    && Fits(raw, "run_and_terminate", v => AsBool(co, v))
    && Fits(raw, "validate_before_import", v => AsBool(co, v))
    && Fits(raw, "queue_protocol", AsStr)
    && Fits(raw, "queue_threshold", v => AsInt(co, v))
    && Fits(raw, "send_to_queue", v => AsBool(co, v))
    && Fits(raw, "send_to_directory", v => AsBool(co, v))
    && Fits(raw, "send_to_directory_path", OptStr)
    && Fits(raw, "send_to_directory_retention", v => AsInt(co, v))
  }

  /** The `connector` section is read exactly when its fields are valid. */
  lemma ConnectorReads(raw: Section, co: Coercions)
    ensures ParseConnector(raw, co).Success? <==> ConnectorFieldsValid(raw, co)
  {
    ConnectorInvalidReported1(raw, co);
    ConnectorInvalidReported2(raw, co);
    ConnectorInvalidReported3(raw, co);
    ConnectorInvalidReported4(raw, co);
  }

  /** Each `connector` field from `id` to `duration_period` given with a value of the wrong type is reported at its location. */
  lemma ConnectorInvalidReported1(raw: Section, co: Coercions)
    ensures var p, s := ParseConnector(raw, co), "connector";
      (!Fits(raw, "id", AsStr) ==> Reported(p, s, "id"))
      && (!Fits(raw, "name", AsStr) ==> Reported(p, s, "name"))
      && (!Fits(raw, "type", AsConnectorType) ==> Reported(p, s, "type"))
      && (!Fits(raw, "scope", AsStrList) ==> Reported(p, s, "scope"))
      && (!Fits(raw, "duration_period", v => AsDuration(co, v)) ==> Reported(p, s, "duration_period"))
  {
    var p, s := ParseConnector(raw, co), "connector";
    if !Fits(raw, "id", AsStr) {
      assert Reported(p, s, "id");
    }
    if !Fits(raw, "name", AsStr) {
      assert Reported(p, s, "name");
    }
    if !Fits(raw, "type", AsConnectorType) {
      assert Reported(p, s, "type");
    }
    if !Fits(raw, "scope", AsStrList) {
      assert Reported(p, s, "scope");
    }
    if !Fits(raw, "duration_period", v => AsDuration(co, v)) {
      assert Reported(p, s, "duration_period");
    }
  }

  /** Each `connector` field from `log_level` to `only_contextual` given with a value of the wrong type is reported at its location. */
  lemma ConnectorInvalidReported2(raw: Section, co: Coercions)
    ensures var p, s := ParseConnector(raw, co), "connector";
      (!Fits(raw, "log_level", AsLogLevel) ==> Reported(p, s, "log_level"))
      && (!Fits(raw, "auto", v => AsBool(co, v)) ==> Reported(p, s, "auto"))
      && (!Fits(raw, "expose_metrics", v => AsBool(co, v)) ==> Reported(p, s, "expose_metrics"))
      && (!Fits(raw, "metrics_port", v => AsInt(co, v)) ==> Reported(p, s, "metrics_port"))
      && (!Fits(raw, "only_contextual", v => AsBool(co, v)) ==> Reported(p, s, "only_contextual"))
  {
    var p, s := ParseConnector(raw, co), "connector";
    if !Fits(raw, "log_level", AsLogLevel) {
      assert Reported(p, s, "log_level");
    }
    if !Fits(raw, "auto", v => AsBool(co, v)) {
      assert Reported(p, s, "auto");
    }
    if !Fits(raw, "expose_metrics", v => AsBool(co, v)) {
      assert Reported(p, s, "expose_metrics");
    }
    if !Fits(raw, "metrics_port", v => AsInt(co, v)) {
      assert Reported(p, s, "metrics_port");
    }
    if !Fits(raw, "only_contextual", v => AsBool(co, v)) {
      assert Reported(p, s, "only_contextual");
    }
  }

  /** Each `connector` field from `run_and_terminate` to `send_to_queue` given with a value of the wrong type is reported at its location. */
  lemma ConnectorInvalidReported3(raw: Section, co: Coercions)
    ensures var p, s := ParseConnector(raw, co), "connector";
      (!Fits(raw, "run_and_terminate", v => AsBool(co, v)) ==> Reported(p, s, "run_and_terminate"))
      && (!Fits(raw, "validate_before_import", v => AsBool(co, v)) ==> Reported(p, s, "validate_before_import"))
      && (!Fits(raw, "queue_protocol", AsStr) ==> Reported(p, s, "queue_protocol"))
      && (!Fits(raw, "queue_threshold", v => AsInt(co, v)) ==> Reported(p, s, "queue_threshold"))
      && (!Fits(raw, "send_to_queue", v => AsBool(co, v)) ==> Reported(p, s, "send_to_queue"))
  {
    var p, s := ParseConnector(raw, co), "connector";
    if !Fits(raw, "run_and_terminate", v => AsBool(co, v)) {
      assert Reported(p, s, "run_and_terminate");
    }
    if !Fits(raw, "validate_before_import", v => AsBool(co, v)) {
      assert Reported(p, s, "validate_before_import");
    }
    if !Fits(raw, "queue_protocol", AsStr) {
      assert Reported(p, s, "queue_protocol");
    }
    if !Fits(raw, "queue_threshold", v => AsInt(co, v)) {
      assert Reported(p, s, "queue_threshold");
    }
    if !Fits(raw, "send_to_queue", v => AsBool(co, v)) {
      assert Reported(p, s, "send_to_queue");
    }
  }

  /** Each `connector` field from `send_to_directory` to `send_to_directory_retention` given with a value of the wrong type is reported at its location. */
  lemma ConnectorInvalidReported4(raw: Section, co: Coercions)
    ensures var p, s := ParseConnector(raw, co), "connector";
      (!Fits(raw, "send_to_directory", v => AsBool(co, v)) ==> Reported(p, s, "send_to_directory"))
      && (!Fits(raw, "send_to_directory_path", OptStr) ==> Reported(p, s, "send_to_directory_path"))
      && (!Fits(raw, "send_to_directory_retention", v => AsInt(co, v)) ==> Reported(p, s, "send_to_directory_retention"))
  {
    var p, s := ParseConnector(raw, co), "connector";
    if !Fits(raw, "send_to_directory", v => AsBool(co, v)) {
      assert Reported(p, s, "send_to_directory");
    }
    if !Fits(raw, "send_to_directory_path", OptStr) {
      assert Reported(p, s, "send_to_directory_path");
    }
    if !Fits(raw, "send_to_directory_retention", v => AsInt(co, v)) {
      assert Reported(p, s, "send_to_directory_retention");
    }
  }

  /** The `connector` fields from `id` to `log_level` of a read section are the values given. */
  lemma ConnectorValues1(raw: Section, co: Coercions)
    ensures var p := ParseConnector(raw, co);
      p.Success? ==>
        ReadAs(raw, "id", AsStr, p.value.id)
        && ReadAs(raw, "name", AsStr, p.value.name)
        && ReadAs(raw, "type", AsConnectorType, p.value.connectorType)
        && ReadAs(raw, "scope", AsStrList, p.value.scope)
        && ReadAs(raw, "duration_period", v => AsDuration(co, v), p.value.durationPeriod)
        && ReadAs(raw, "log_level", AsLogLevel, p.value.logLevel)
  {
  }

  /** The `connector` fields from `auto` to `validate_before_import` of a read section are the values given. */
  lemma ConnectorValues2(raw: Section, co: Coercions)
    ensures var p := ParseConnector(raw, co);
      p.Success? ==>
        ReadAs(raw, "auto", v => AsBool(co, v), p.value.auto)
        && ReadAs(raw, "expose_metrics", v => AsBool(co, v), p.value.exposeMetrics)
        && ReadAs(raw, "metrics_port", v => AsInt(co, v), p.value.metricsPort)
        && ReadAs(raw, "only_contextual", v => AsBool(co, v), p.value.onlyContextual)
        && ReadAs(raw, "run_and_terminate", v => AsBool(co, v), p.value.runAndTerminate)
        && ReadAs(raw, "validate_before_import", v => AsBool(co, v), p.value.validateBeforeImport)
  {
  }

  /** The `connector` fields from `queue_protocol` to `send_to_directory_retention` of a read section are the values given. */
  lemma ConnectorValues3(raw: Section, co: Coercions)
    ensures var p := ParseConnector(raw, co);
      p.Success? ==>
        ReadAs(raw, "queue_protocol", AsStr, p.value.queueProtocol)
        && ReadAs(raw, "queue_threshold", v => AsInt(co, v), p.value.queueThreshold)
        && ReadAs(raw, "send_to_queue", v => AsBool(co, v), p.value.sendToQueue)
        && ReadAs(raw, "send_to_directory", v => AsBool(co, v), p.value.sendToDirectory)
        && ReadAs(raw, "send_to_directory_path", OptStr, p.value.sendToDirectoryPath)
        && ReadAs(raw, "send_to_directory_retention", v => AsInt(co, v), p.value.sendToDirectoryRetention)
  {
  }

  /**
   * Every optional `connector` field the raw section omits takes its
   * declared default in a section that was read successfully, and the
   * connector type, when given, can only be "EXTERNAL_IMPORT".
   */
  lemma ConnectorDefaults(raw: Section, co: Coercions)
    ensures var p := ParseConnector(raw, co);
      p.Success? ==>
        ("type" in raw ==> raw["type"] == VStr("EXTERNAL_IMPORT"))
        && ("scope" !in raw ==> p.value.scope == ["misp"])
        && ("duration_period" !in raw ==> p.value.durationPeriod == DefaultDurationPeriod)
        && ("log_level" !in raw ==> p.value.logLevel == Error)
        && ("metrics_port" !in raw ==> p.value.metricsPort == 9095)
        && ("queue_protocol" !in raw ==> p.value.queueProtocol == "amqp")
        && ("queue_threshold" !in raw ==> p.value.queueThreshold == 500)
        && ("send_to_queue" !in raw ==> p.value.sendToQueue)
        && ("send_to_directory_path" !in raw ==> p.value.sendToDirectoryPath == None)
        && ("send_to_directory_retention" !in raw ==> p.value.sendToDirectoryRetention == 7)
  {
  }

  /** The boolean switches of a successfully read `connector` section default to off. */
  lemma ConnectorSwitchesDefaultOff(raw: Section, co: Coercions)
    ensures var p := ParseConnector(raw, co);
      p.Success? ==>
        ("auto" !in raw ==> !p.value.auto)
        && ("expose_metrics" !in raw ==> !p.value.exposeMetrics)
        && ("only_contextual" !in raw ==> !p.value.onlyContextual)
        && ("run_and_terminate" !in raw ==> !p.value.runAndTerminate)
        && ("validate_before_import" !in raw ==> !p.value.validateBeforeImport)
        && ("send_to_directory" !in raw ==> !p.value.sendToDirectory)
  {
  }

  /** A `timedelta` given for `duration_period` is taken as it is. */
  lemma ConnectorDurationGiven(raw: Section, co: Coercions)
    requires "duration_period" in raw && raw["duration_period"].VDuration?
    ensures var p := ParseConnector(raw, co);
      p.Success? ==> p.value.durationPeriod == raw["duration_period"].micros
  {
  }

  // ---------------------------------------------------------------------
  // Section `misp`

  datatype MispConfig = MispConfig(
    url: string,
    key: string,
    sslVerify: bool,
    clientCert: Option<string>,
    referenceUrl: Option<string>,
    createReports: bool,
    createIndicators: bool,
    createObservables: bool,
    datetimeAttribute: Option<string>,
    dateFilterField: Option<string>,
    reportDescriptionAttributeFilter: Option<map<string, Value>>,
    createObjectObservables: Option<bool>,
    createTagsAsLabels: Option<bool>,
    guessThreatsFromTags: Option<bool>,
    authorFromTags: Option<bool>,
    markingsFromTags: Option<bool>,
    keepOriginalTagsAsLabel: Option<seq<string>>,
    enforceWarningList: Option<bool>,
    reportType: Option<string>,
    importFromDate: Option<DateTime>,
    importTags: Option<seq<string>>,
    importTagsNot: Option<seq<string>>,
    importCreatorOrgs: Option<seq<string>>,
    importCreatorOrgsNot: Option<seq<string>>,
    importOwnerOrgs: Option<seq<string>>,
    importOwnerOrgsNot: Option<seq<string>>,
    importKeyword: Option<string>,
    importDistributionLevels: Option<seq<string>>,
    importThreatLevels: Option<seq<string>>,
    importOnlyPublished: bool,
    importWithAttachments: Option<bool>,
    importToIdsNoScore: int,
    importUnsupportedObservablesAsText: Option<bool>,
    importUnsupportedObservablesAsTextTransparent: Option<bool>,
    propagateLabels: Option<bool>,
    extra: Section)

  const MispFields: set<string> := {
    "url", "key", "ssl_verify", "client_cert", "reference_url", "create_reports",
    "create_indicators", "create_observables", "datetime_attribute", "date_filter_field",
    "report_description_attribute_filter", "create_object_observables", "create_tags_as_labels",
    "guess_threats_from_tags", "author_from_tags", "markings_from_tags",
    "keep_original_tags_as_label", "enforce_warning_list", "report_type", "import_from_date",
    "import_tags", "import_tags_not", "import_creator_orgs", "import_creator_orgs_not",
    "import_owner_orgs", "import_owner_orgs_not", "import_keyword", "import_distribution_levels",
    "import_threat_levels", "import_only_published", "import_with_attachments",
    "import_to_ids_no_score", "import_unsupported_observables_as_text",
    "import_unsupported_observables_as_text_transparent", "propagate_labels"}

  function ParseMisp(raw: Section, co: Coercions): (r: Result<MispConfig, seq<FieldError>>)
    ensures r.Success? ==>
      "url" in raw && "key" in raw && "ssl_verify" in raw && "create_reports" in raw
      && "create_indicators" in raw && "create_observables" in raw
      && "import_only_published" in raw && "import_to_ids_no_score" in raw
    ensures r.Success? ==> r.value.extra == Extras(raw, MispFields)
    ensures r.Failure? ==> r.error != []
  {
    var s := "misp";
    var url := Required(s, raw, "url", AsStr);
    var key := Required(s, raw, "key", AsStr);
    var sslVerify := Required(s, raw, "ssl_verify", v => AsBool(co, v));
    var clientCert := Defaulted(s, raw, "client_cert", OptStr, None);
    var referenceUrl := Defaulted(s, raw, "reference_url", OptStr, None);
    var createReports := Required(s, raw, "create_reports", v => AsBool(co, v));
    var createIndicators := Required(s, raw, "create_indicators", v => AsBool(co, v));
    var createObservables := Required(s, raw, "create_observables", v => AsBool(co, v));
    var datetimeAttribute := Defaulted(s, raw, "datetime_attribute", OptStr, Some("timestamp"));
    var dateFilterField := Defaulted(s, raw, "date_filter_field", OptStr, Some("timestamp"));
    var reportFilter := Defaulted(s, raw, "report_description_attribute_filter", v => Nullable(v, AsDict(v)), Some(map[]));
    var createObjectObservables := Defaulted(s, raw, "create_object_observables", v => OptBool(co, v), Some(false));
    var createTagsAsLabels := Defaulted(s, raw, "create_tags_as_labels", v => OptBool(co, v), Some(true));
    var guessThreatsFromTags := Defaulted(s, raw, "guess_threats_from_tags", v => OptBool(co, v), Some(false));
    var authorFromTags := Defaulted(s, raw, "author_from_tags", v => OptBool(co, v), Some(false));
    var markingsFromTags := Defaulted(s, raw, "markings_from_tags", v => OptBool(co, v), Some(false));
    var keepOriginalTags := Defaulted(s, raw, "keep_original_tags_as_label", OptStrList, Some([]));
    var enforceWarningList := Defaulted(s, raw, "enforce_warning_list", v => OptBool(co, v), Some(false));
    var reportType := Defaulted(s, raw, "report_type", OptStr, Some("misp-event"));
    var importFromDate := Defaulted(s, raw, "import_from_date", v => Nullable(v, AsAwareDatetime(co, v)), None);
    var importTags := Defaulted(s, raw, "import_tags", OptStrList, Some([]));
    var importTagsNot := Defaulted(s, raw, "import_tags_not", OptStrList, Some([]));
    var importCreatorOrgs := Defaulted(s, raw, "import_creator_orgs", OptStrList, Some([]));
    var importCreatorOrgsNot := Defaulted(s, raw, "import_creator_orgs_not", OptStrList, Some([]));
    var importOwnerOrgs := Defaulted(s, raw, "import_owner_orgs", OptStrList, Some([]));
    var importOwnerOrgsNot := Defaulted(s, raw, "import_owner_orgs_not", OptStrList, Some([]));
    var importKeyword := Defaulted(s, raw, "import_keyword", OptStr, None);
    var importDistributionLevels := Defaulted(s, raw, "import_distribution_levels", OptStrList, Some([]));
    var importThreatLevels := Defaulted(s, raw, "import_threat_levels", OptStrList, Some([]));
    var importOnlyPublished := Required(s, raw, "import_only_published", v => AsBool(co, v));
    var importWithAttachments := Defaulted(s, raw, "import_with_attachments", v => OptBool(co, v), Some(false));
    var importToIdsNoScore := Required(s, raw, "import_to_ids_no_score", v => AsInt(co, v));
    var unsupportedAsText := Defaulted(s, raw, "import_unsupported_observables_as_text", v => OptBool(co, v), Some(false));
    var unsupportedTransparent := Defaulted(s, raw, "import_unsupported_observables_as_text_transparent", v => OptBool(co, v), Some(true));
    var propagateLabels := Defaulted(s, raw, "propagate_labels", v => OptBool(co, v), Some(false));
    var errs :=
      ((Errs(url) + Errs(key) + Errs(sslVerify) + Errs(clientCert) + Errs(referenceUrl) + Errs(createReports))
      + (Errs(createIndicators) + Errs(createObservables) + Errs(datetimeAttribute) + Errs(dateFilterField)
         + Errs(reportFilter) + Errs(createObjectObservables)))
      + ((Errs(createTagsAsLabels) + Errs(guessThreatsFromTags) + Errs(authorFromTags) + Errs(markingsFromTags)
         + Errs(keepOriginalTags) + Errs(enforceWarningList))
      + (Errs(reportType) + Errs(importFromDate) + Errs(importTags) + Errs(importTagsNot)
         + Errs(importCreatorOrgs) + Errs(importCreatorOrgsNot)))
      + ((Errs(importOwnerOrgs) + Errs(importOwnerOrgsNot) + Errs(importKeyword) + Errs(importDistributionLevels)
         + Errs(importThreatLevels) + Errs(importOnlyPublished))
      + (Errs(importWithAttachments) + Errs(importToIdsNoScore) + Errs(unsupportedAsText)
         + Errs(unsupportedTransparent) + Errs(propagateLabels)));
    if errs == [] then
      Success(MispConfig(
        url.value, key.value, sslVerify.value, clientCert.value, referenceUrl.value,
        createReports.value, createIndicators.value, createObservables.value,
        datetimeAttribute.value, dateFilterField.value, reportFilter.value,
        createObjectObservables.value, createTagsAsLabels.value, guessThreatsFromTags.value,
        authorFromTags.value, markingsFromTags.value, keepOriginalTags.value,
        enforceWarningList.value, reportType.value, importFromDate.value,
        importTags.value, importTagsNot.value, importCreatorOrgs.value,
        importCreatorOrgsNot.value, importOwnerOrgs.value, importOwnerOrgsNot.value,
        importKeyword.value, importDistributionLevels.value, importThreatLevels.value,
        importOnlyPublished.value, importWithAttachments.value, importToIdsNoScore.value,
        unsupportedAsText.value, unsupportedTransparent.value, propagateLabels.value,
        Extras(raw, MispFields)))
    else
      Failure(errs)
  }

  /** The required fields are given and every `misp` field given has the field's type. */
  predicate MispFieldsValid(raw: Section, co: Coercions) {
    "url" in raw && Fits(raw, "url", AsStr)
    && "key" in raw && Fits(raw, "key", AsStr)
    && "ssl_verify" in raw && Fits(raw, "ssl_verify", v => AsBool(co, v))
    && Fits(raw, "client_cert", OptStr)
    && Fits(raw, "reference_url", OptStr)
    && "create_reports" in raw && Fits(raw, "create_reports", v => AsBool(co, v))
    && "create_indicators" in raw && Fits(raw, "create_indicators", v => AsBool(co, v))
    && "create_observables" in raw && Fits(raw, "create_observables", v => AsBool(co, v))
    && Fits(raw, "datetime_attribute", OptStr)
    && Fits(raw, "date_filter_field", OptStr)
    && Fits(raw, "report_description_attribute_filter", v => Nullable(v, AsDict(v)))
    && Fits(raw, "create_object_observables", v => OptBool(co, v))
    && Fits(raw, "create_tags_as_labels", v => OptBool(co, v))
    && Fits(raw, "guess_threats_from_tags", v => OptBool(co, v))
    && Fits(raw, "author_from_tags", v => OptBool(co, v))
    && Fits(raw, "markings_from_tags", v => OptBool(co, v))
    && Fits(raw, "keep_original_tags_as_label", OptStrList)
    && Fits(raw, "enforce_warning_list", v => OptBool(co, v))
    && Fits(raw, "report_type", OptStr)
    && Fits(raw, "import_from_date", v => Nullable(v, AsAwareDatetime(co, v)))
    && Fits(raw, "import_tags", OptStrList)
    && Fits(raw, "import_tags_not", OptStrList)
    && Fits(raw, "import_creator_orgs", OptStrList)
    && Fits(raw, "import_creator_orgs_not", OptStrList)
    && Fits(raw, "import_owner_orgs", OptStrList)
    && Fits(raw, "import_owner_orgs_not", OptStrList)
    && Fits(raw, "import_keyword", OptStr)
    && Fits(raw, "import_distribution_levels", OptStrList)
    && Fits(raw, "import_threat_levels", OptStrList)
    && "import_only_published" in raw && Fits(raw, "import_only_published", v => AsBool(co, v))
    && Fits(raw, "import_with_attachments", v => OptBool(co, v))
    && "import_to_ids_no_score" in raw && Fits(raw, "import_to_ids_no_score", v => AsInt(co, v))
    && Fits(raw, "import_unsupported_observables_as_text", v => OptBool(co, v))
    && Fits(raw, "import_unsupported_observables_as_text_transparent", v => OptBool(co, v))
    && Fits(raw, "propagate_labels", v => OptBool(co, v))
  }

  /** The `misp` section is read exactly when its fields are valid. */
  lemma MispReads(raw: Section, co: Coercions)
    ensures ParseMisp(raw, co).Success? <==> MispFieldsValid(raw, co)
  {
    MispReadOnlyValid(raw, co);
    MispValidRead(raw, co);
  }

  /** A `misp` section that is read has valid fields. */
  lemma MispReadOnlyValid(raw: Section, co: Coercions)
    ensures ParseMisp(raw, co).Success? ==> MispFieldsValid(raw, co)
  {
    MispInvalidReported1(raw, co);
    MispInvalidReported2(raw, co);
    MispInvalidReported3(raw, co);
    MispInvalidReported4(raw, co);
    MispInvalidReported5(raw, co);
    MispInvalidReported6(raw, co);
    MispInvalidReported7(raw, co);
  }

  /** A `misp` section with valid fields is read. */
  lemma MispValidRead(raw: Section, co: Coercions)
    ensures MispFieldsValid(raw, co) ==> ParseMisp(raw, co).Success?
  {
    if MispFieldsValid(raw, co) {
      assert Required("misp", raw, "url", AsStr).Success?;
      assert Required("misp", raw, "key", AsStr).Success?;
      assert Required("misp", raw, "ssl_verify", v => AsBool(co, v)).Success?;
      assert Defaulted("misp", raw, "client_cert", OptStr, None).Success?;
      assert Defaulted("misp", raw, "reference_url", OptStr, None).Success?;
      assert Required("misp", raw, "create_reports", v => AsBool(co, v)).Success?;
      assert Required("misp", raw, "create_indicators", v => AsBool(co, v)).Success?;
      assert Required("misp", raw, "create_observables", v => AsBool(co, v)).Success?;
      assert Defaulted("misp", raw, "datetime_attribute", OptStr, Some("timestamp")).Success?;
      assert Defaulted("misp", raw, "date_filter_field", OptStr, Some("timestamp")).Success?;
      assert Defaulted("misp", raw, "report_description_attribute_filter", v => Nullable(v, AsDict(v)), Some(map[])).Success?;
      assert Defaulted("misp", raw, "create_object_observables", v => OptBool(co, v), Some(false)).Success?;
      assert Defaulted("misp", raw, "create_tags_as_labels", v => OptBool(co, v), Some(true)).Success?;
      assert Defaulted("misp", raw, "guess_threats_from_tags", v => OptBool(co, v), Some(false)).Success?;
      assert Defaulted("misp", raw, "author_from_tags", v => OptBool(co, v), Some(false)).Success?;
      assert Defaulted("misp", raw, "markings_from_tags", v => OptBool(co, v), Some(false)).Success?;
      assert Defaulted("misp", raw, "keep_original_tags_as_label", OptStrList, Some([])).Success?;
      assert Defaulted("misp", raw, "enforce_warning_list", v => OptBool(co, v), Some(false)).Success?;
      assert Defaulted("misp", raw, "report_type", OptStr, Some("misp-event")).Success?;
      assert Defaulted("misp", raw, "import_from_date", v => Nullable(v, AsAwareDatetime(co, v)), None).Success?;
      assert Defaulted("misp", raw, "import_tags", OptStrList, Some([])).Success?;
      assert Defaulted("misp", raw, "import_tags_not", OptStrList, Some([])).Success?;
      assert Defaulted("misp", raw, "import_creator_orgs", OptStrList, Some([])).Success?;
      assert Defaulted("misp", raw, "import_creator_orgs_not", OptStrList, Some([])).Success?;
      assert Defaulted("misp", raw, "import_owner_orgs", OptStrList, Some([])).Success?;
      assert Defaulted("misp", raw, "import_owner_orgs_not", OptStrList, Some([])).Success?;
      assert Defaulted("misp", raw, "import_keyword", OptStr, None).Success?;
      assert Defaulted("misp", raw, "import_distribution_levels", OptStrList, Some([])).Success?;
      assert Defaulted("misp", raw, "import_threat_levels", OptStrList, Some([])).Success?;
      assert Required("misp", raw, "import_only_published", v => AsBool(co, v)).Success?;
      assert Defaulted("misp", raw, "import_with_attachments", v => OptBool(co, v), Some(false)).Success?;
      assert Required("misp", raw, "import_to_ids_no_score", v => AsInt(co, v)).Success?;
      assert Defaulted("misp", raw, "import_unsupported_observables_as_text", v => OptBool(co, v), Some(false)).Success?;
      assert Defaulted("misp", raw, "import_unsupported_observables_as_text_transparent", v => OptBool(co, v), Some(true)).Success?;
      assert Defaulted("misp", raw, "propagate_labels", v => OptBool(co, v), Some(false)).Success?;
    }
  }

  /** Each `misp` field from `url` to `reference_url` given with a value of the wrong type is reported at its location. */
  lemma MispInvalidReported1(raw: Section, co: Coercions)
    ensures var p, s := ParseMisp(raw, co), "misp";
      (!Fits(raw, "url", AsStr) ==> Reported(p, s, "url"))
      && (!Fits(raw, "key", AsStr) ==> Reported(p, s, "key"))
      && (!Fits(raw, "ssl_verify", v => AsBool(co, v)) ==> Reported(p, s, "ssl_verify"))
      && (!Fits(raw, "client_cert", OptStr) ==> Reported(p, s, "client_cert"))
      && (!Fits(raw, "reference_url", OptStr) ==> Reported(p, s, "reference_url"))
  {
    var p, s := ParseMisp(raw, co), "misp";
    if !Fits(raw, "url", AsStr) {
      assert Reported(p, s, "url");
    }
    if !Fits(raw, "key", AsStr) {
      assert Reported(p, s, "key");
    }
    if !Fits(raw, "ssl_verify", v => AsBool(co, v)) {
      assert Reported(p, s, "ssl_verify");
    }
    if !Fits(raw, "client_cert", OptStr) {
      assert Reported(p, s, "client_cert");
    }
    if !Fits(raw, "reference_url", OptStr) {
      assert Reported(p, s, "reference_url");
    }
  }

  /** Each `misp` field from `create_reports` to `date_filter_field` given with a value of the wrong type is reported at its location. */
  lemma MispInvalidReported2(raw: Section, co: Coercions)
    ensures var p, s := ParseMisp(raw, co), "misp";
      (!Fits(raw, "create_reports", v => AsBool(co, v)) ==> Reported(p, s, "create_reports"))
      && (!Fits(raw, "create_indicators", v => AsBool(co, v)) ==> Reported(p, s, "create_indicators"))
      && (!Fits(raw, "create_observables", v => AsBool(co, v)) ==> Reported(p, s, "create_observables"))
      && (!Fits(raw, "datetime_attribute", OptStr) ==> Reported(p, s, "datetime_attribute"))
      && (!Fits(raw, "date_filter_field", OptStr) ==> Reported(p, s, "date_filter_field"))
  {
    var p, s := ParseMisp(raw, co), "misp";
    if !Fits(raw, "create_reports", v => AsBool(co, v)) {
      assert Reported(p, s, "create_reports");
    }
    if !Fits(raw, "create_indicators", v => AsBool(co, v)) {
      assert Reported(p, s, "create_indicators");
    }
    if !Fits(raw, "create_observables", v => AsBool(co, v)) {
      assert Reported(p, s, "create_observables");
    }
    if !Fits(raw, "datetime_attribute", OptStr) {
      assert Reported(p, s, "datetime_attribute");
    }
    if !Fits(raw, "date_filter_field", OptStr) {
      assert Reported(p, s, "date_filter_field");
    }
  }

  /** Each `misp` field from `report_description_attribute_filter` to `author_from_tags` given with a value of the wrong type is reported at its location. */
  lemma MispInvalidReported3(raw: Section, co: Coercions)
    ensures var p, s := ParseMisp(raw, co), "misp";
      (!Fits(raw, "report_description_attribute_filter", v => Nullable(v, AsDict(v))) ==> Reported(p, s, "report_description_attribute_filter"))
      && (!Fits(raw, "create_object_observables", v => OptBool(co, v)) ==> Reported(p, s, "create_object_observables"))
      && (!Fits(raw, "create_tags_as_labels", v => OptBool(co, v)) ==> Reported(p, s, "create_tags_as_labels"))
      && (!Fits(raw, "guess_threats_from_tags", v => OptBool(co, v)) ==> Reported(p, s, "guess_threats_from_tags"))
      && (!Fits(raw, "author_from_tags", v => OptBool(co, v)) ==> Reported(p, s, "author_from_tags"))
  {
    var p, s := ParseMisp(raw, co), "misp";
    if !Fits(raw, "report_description_attribute_filter", v => Nullable(v, AsDict(v))) {
      assert Reported(p, s, "report_description_attribute_filter");
    }
    if !Fits(raw, "create_object_observables", v => OptBool(co, v)) {
      assert Reported(p, s, "create_object_observables");
    }
    if !Fits(raw, "create_tags_as_labels", v => OptBool(co, v)) {
      assert Reported(p, s, "create_tags_as_labels");
    }
    if !Fits(raw, "guess_threats_from_tags", v => OptBool(co, v)) {
      assert Reported(p, s, "guess_threats_from_tags");
    }
    if !Fits(raw, "author_from_tags", v => OptBool(co, v)) {
      assert Reported(p, s, "author_from_tags");
    }
  }

  /** Each `misp` field from `markings_from_tags` to `import_from_date` given with a value of the wrong type is reported at its location. */
  lemma MispInvalidReported4(raw: Section, co: Coercions)
    ensures var p, s := ParseMisp(raw, co), "misp";
      (!Fits(raw, "markings_from_tags", v => OptBool(co, v)) ==> Reported(p, s, "markings_from_tags"))
      && (!Fits(raw, "keep_original_tags_as_label", OptStrList) ==> Reported(p, s, "keep_original_tags_as_label"))
      && (!Fits(raw, "enforce_warning_list", v => OptBool(co, v)) ==> Reported(p, s, "enforce_warning_list"))
      && (!Fits(raw, "report_type", OptStr) ==> Reported(p, s, "report_type"))
      && (!Fits(raw, "import_from_date", v => Nullable(v, AsAwareDatetime(co, v))) ==> Reported(p, s, "import_from_date"))
  {
    var p, s := ParseMisp(raw, co), "misp";
    if !Fits(raw, "markings_from_tags", v => OptBool(co, v)) {
      assert Reported(p, s, "markings_from_tags");
    }
    if !Fits(raw, "keep_original_tags_as_label", OptStrList) {
      assert Reported(p, s, "keep_original_tags_as_label");
    }
    if !Fits(raw, "enforce_warning_list", v => OptBool(co, v)) {
      assert Reported(p, s, "enforce_warning_list");
    }
    if !Fits(raw, "report_type", OptStr) {
      assert Reported(p, s, "report_type");
    }
    if !Fits(raw, "import_from_date", v => Nullable(v, AsAwareDatetime(co, v))) {
      assert Reported(p, s, "import_from_date");
    }
  }

  /** Each `misp` field from `import_tags` to `import_owner_orgs` given with a value of the wrong type is reported at its location. */
  lemma MispInvalidReported5(raw: Section, co: Coercions)
    ensures var p, s := ParseMisp(raw, co), "misp";
      (!Fits(raw, "import_tags", OptStrList) ==> Reported(p, s, "import_tags"))
      && (!Fits(raw, "import_tags_not", OptStrList) ==> Reported(p, s, "import_tags_not"))
      && (!Fits(raw, "import_creator_orgs", OptStrList) ==> Reported(p, s, "import_creator_orgs"))
      && (!Fits(raw, "import_creator_orgs_not", OptStrList) ==> Reported(p, s, "import_creator_orgs_not"))
      && (!Fits(raw, "import_owner_orgs", OptStrList) ==> Reported(p, s, "import_owner_orgs"))
  {
    var p, s := ParseMisp(raw, co), "misp";
    if !Fits(raw, "import_tags", OptStrList) {
      assert Reported(p, s, "import_tags");
    }
    if !Fits(raw, "import_tags_not", OptStrList) {
      assert Reported(p, s, "import_tags_not");
    }
    if !Fits(raw, "import_creator_orgs", OptStrList) {
      assert Reported(p, s, "import_creator_orgs");
    }
    if !Fits(raw, "import_creator_orgs_not", OptStrList) {
      assert Reported(p, s, "import_creator_orgs_not");
    }
    if !Fits(raw, "import_owner_orgs", OptStrList) {
      assert Reported(p, s, "import_owner_orgs");
    }
  }

  /** Each `misp` field from `import_owner_orgs_not` to `import_only_published` given with a value of the wrong type is reported at its location. */
  lemma MispInvalidReported6(raw: Section, co: Coercions)
    ensures var p, s := ParseMisp(raw, co), "misp";
      (!Fits(raw, "import_owner_orgs_not", OptStrList) ==> Reported(p, s, "import_owner_orgs_not"))
      && (!Fits(raw, "import_keyword", OptStr) ==> Reported(p, s, "import_keyword"))
      && (!Fits(raw, "import_distribution_levels", OptStrList) ==> Reported(p, s, "import_distribution_levels"))
      && (!Fits(raw, "import_threat_levels", OptStrList) ==> Reported(p, s, "import_threat_levels"))
      && (!Fits(raw, "import_only_published", v => AsBool(co, v)) ==> Reported(p, s, "import_only_published"))
  {
    var p, s := ParseMisp(raw, co), "misp";
    if !Fits(raw, "import_owner_orgs_not", OptStrList) {
      assert Reported(p, s, "import_owner_orgs_not");
    }
    if !Fits(raw, "import_keyword", OptStr) {
      assert Reported(p, s, "import_keyword");
    }
    if !Fits(raw, "import_distribution_levels", OptStrList) {
      assert Reported(p, s, "import_distribution_levels");
    }
    if !Fits(raw, "import_threat_levels", OptStrList) {
      assert Reported(p, s, "import_threat_levels");
    }
    if !Fits(raw, "import_only_published", v => AsBool(co, v)) {
      assert Reported(p, s, "import_only_published");
    }
  }

  /** Each `misp` field from `import_with_attachments` to `propagate_labels` given with a value of the wrong type is reported at its location. */
  lemma MispInvalidReported7(raw: Section, co: Coercions)
    ensures var p, s := ParseMisp(raw, co), "misp";
      (!Fits(raw, "import_with_attachments", v => OptBool(co, v)) ==> Reported(p, s, "import_with_attachments"))
      && (!Fits(raw, "import_to_ids_no_score", v => AsInt(co, v)) ==> Reported(p, s, "import_to_ids_no_score"))
      && (!Fits(raw, "import_unsupported_observables_as_text", v => OptBool(co, v)) ==> Reported(p, s, "import_unsupported_observables_as_text"))
      && (!Fits(raw, "import_unsupported_observables_as_text_transparent", v => OptBool(co, v)) ==> Reported(p, s, "import_unsupported_observables_as_text_transparent"))
      && (!Fits(raw, "propagate_labels", v => OptBool(co, v)) ==> Reported(p, s, "propagate_labels"))
  {
    var p, s := ParseMisp(raw, co), "misp";
    if !Fits(raw, "import_with_attachments", v => OptBool(co, v)) {
      assert Reported(p, s, "import_with_attachments");
    }
    if !Fits(raw, "import_to_ids_no_score", v => AsInt(co, v)) {
      assert Reported(p, s, "import_to_ids_no_score");
    }
    if !Fits(raw, "import_unsupported_observables_as_text", v => OptBool(co, v)) {
      assert Reported(p, s, "import_unsupported_observables_as_text");
    }
    if !Fits(raw, "import_unsupported_observables_as_text_transparent", v => OptBool(co, v)) {
      assert Reported(p, s, "import_unsupported_observables_as_text_transparent");
    }
    if !Fits(raw, "propagate_labels", v => OptBool(co, v)) {
      assert Reported(p, s, "propagate_labels");
    }
  }

  /** The `misp` fields from `url` to `create_reports` of a read section are the values given. */
  lemma MispValues1(raw: Section, co: Coercions)
    ensures var p := ParseMisp(raw, co);
      p.Success? ==>
        ReadAs(raw, "url", AsStr, p.value.url)
        && ReadAs(raw, "key", AsStr, p.value.key)
        && ReadAs(raw, "ssl_verify", v => AsBool(co, v), p.value.sslVerify)
        && ReadAs(raw, "client_cert", OptStr, p.value.clientCert)
        && ReadAs(raw, "reference_url", OptStr, p.value.referenceUrl)
        && ReadAs(raw, "create_reports", v => AsBool(co, v), p.value.createReports)
  {
  }

  /** The `misp` fields from `create_indicators` to `create_object_observables` of a read section are the values given. */
  lemma MispValues2(raw: Section, co: Coercions)
    ensures var p := ParseMisp(raw, co);
      p.Success? ==>
        ReadAs(raw, "create_indicators", v => AsBool(co, v), p.value.createIndicators)
        && ReadAs(raw, "create_observables", v => AsBool(co, v), p.value.createObservables)
        && ReadAs(raw, "datetime_attribute", OptStr, p.value.datetimeAttribute)
        && ReadAs(raw, "date_filter_field", OptStr, p.value.dateFilterField)
        && ReadAs(raw, "report_description_attribute_filter", v => Nullable(v, AsDict(v)), p.value.reportDescriptionAttributeFilter)
        && ReadAs(raw, "create_object_observables", v => OptBool(co, v), p.value.createObjectObservables)
  {
  }

  /** The `misp` fields from `create_tags_as_labels` to `enforce_warning_list` of a read section are the values given. */
  lemma MispValues3(raw: Section, co: Coercions)
    ensures var p := ParseMisp(raw, co);
      p.Success? ==>
        ReadAs(raw, "create_tags_as_labels", v => OptBool(co, v), p.value.createTagsAsLabels)
        && ReadAs(raw, "guess_threats_from_tags", v => OptBool(co, v), p.value.guessThreatsFromTags)
        && ReadAs(raw, "author_from_tags", v => OptBool(co, v), p.value.authorFromTags)
        && ReadAs(raw, "markings_from_tags", v => OptBool(co, v), p.value.markingsFromTags)
        && ReadAs(raw, "keep_original_tags_as_label", OptStrList, p.value.keepOriginalTagsAsLabel)
        && ReadAs(raw, "enforce_warning_list", v => OptBool(co, v), p.value.enforceWarningList)
  {
  }

  /** The `misp` fields from `report_type` to `import_creator_orgs_not` of a read section are the values given. */
  lemma MispValues4(raw: Section, co: Coercions)
    ensures var p := ParseMisp(raw, co);
      p.Success? ==>
        ReadAs(raw, "report_type", OptStr, p.value.reportType)
        && ReadAs(raw, "import_from_date", v => Nullable(v, AsAwareDatetime(co, v)), p.value.importFromDate)
        && ReadAs(raw, "import_tags", OptStrList, p.value.importTags)
        && ReadAs(raw, "import_tags_not", OptStrList, p.value.importTagsNot)
        && ReadAs(raw, "import_creator_orgs", OptStrList, p.value.importCreatorOrgs)
        && ReadAs(raw, "import_creator_orgs_not", OptStrList, p.value.importCreatorOrgsNot)
  {
  }

  /** The `misp` fields from `import_owner_orgs` to `import_only_published` of a read section are the values given. */
  lemma MispValues5(raw: Section, co: Coercions)
    ensures var p := ParseMisp(raw, co);
      p.Success? ==>
        ReadAs(raw, "import_owner_orgs", OptStrList, p.value.importOwnerOrgs)
        && ReadAs(raw, "import_owner_orgs_not", OptStrList, p.value.importOwnerOrgsNot)
        && ReadAs(raw, "import_keyword", OptStr, p.value.importKeyword)
        && ReadAs(raw, "import_distribution_levels", OptStrList, p.value.importDistributionLevels)
        && ReadAs(raw, "import_threat_levels", OptStrList, p.value.importThreatLevels)
        && ReadAs(raw, "import_only_published", v => AsBool(co, v), p.value.importOnlyPublished)
  {
  }

  /** The `misp` fields from `import_with_attachments` to `propagate_labels` of a read section are the values given. */
  lemma MispValues6(raw: Section, co: Coercions)
    ensures var p := ParseMisp(raw, co);
      p.Success? ==>
        ReadAs(raw, "import_with_attachments", v => OptBool(co, v), p.value.importWithAttachments)
        && ReadAs(raw, "import_to_ids_no_score", v => AsInt(co, v), p.value.importToIdsNoScore)
        && ReadAs(raw, "import_unsupported_observables_as_text", v => OptBool(co, v), p.value.importUnsupportedObservablesAsText)
        && ReadAs(raw, "import_unsupported_observables_as_text_transparent", v => OptBool(co, v), p.value.importUnsupportedObservablesAsTextTransparent)
        && ReadAs(raw, "propagate_labels", v => OptBool(co, v), p.value.propagateLabels)
  {
  }

  /**
   * Every optional `misp` field the raw section omits takes its declared
   * default in a section that was read successfully.
   */
  lemma MispDefaults(raw: Section, co: Coercions)
    ensures var p := ParseMisp(raw, co);
      p.Success? ==>
        ("datetime_attribute" !in raw ==> p.value.datetimeAttribute == Some("timestamp"))
        && ("date_filter_field" !in raw ==> p.value.dateFilterField == Some("timestamp"))
        && ("report_type" !in raw ==> p.value.reportType == Some("misp-event"))
        && ("report_description_attribute_filter" !in raw ==> p.value.reportDescriptionAttributeFilter == Some(map[]))
        && ("import_from_date" !in raw ==> p.value.importFromDate == None)
  {
  }

  /** A given `import_from_date` is read as an aware date-time. */
  lemma MispImportFromDateAware(raw: Section, co: Coercions)
    requires "import_from_date" in raw && raw["import_from_date"] != VNone
    ensures var p := ParseMisp(raw, co);
      p.Success? ==> p.value.importFromDate.Some? && p.value.importFromDate.value.Aware()
  {
  }

  /** The defaults of the `misp` section's tag and switch options. */
  lemma MispImportDefaults(raw: Section, co: Coercions)
    ensures var p := ParseMisp(raw, co);
      p.Success? ==>
        ("import_tags" !in raw ==> p.value.importTags == Some([]))
        && ("create_tags_as_labels" !in raw ==> p.value.createTagsAsLabels == Some(true))
        && ("import_unsupported_observables_as_text_transparent" !in raw ==> p.value.importUnsupportedObservablesAsTextTransparent == Some(true))
  {
  }

  /** The client certificate and reference URL of `misp` default to None. */
  lemma MispOptionalDefaults(raw: Section, co: Coercions)
    ensures var p := ParseMisp(raw, co);
      p.Success? ==>
        ("client_cert" !in raw ==> p.value.clientCert == None)
        && ("reference_url" !in raw ==> p.value.referenceUrl == None)
  {
  }

  /** The object, tag and warning-list switches of `misp` default to false. */
  lemma MispSwitchDefaults(raw: Section, co: Coercions)
    ensures var p := ParseMisp(raw, co);
      p.Success? ==>
        ("create_object_observables" !in raw ==> p.value.createObjectObservables == Some(false))
        && ("guess_threats_from_tags" !in raw ==> p.value.guessThreatsFromTags == Some(false))
        && ("author_from_tags" !in raw ==> p.value.authorFromTags == Some(false))
        && ("markings_from_tags" !in raw ==> p.value.markingsFromTags == Some(false))
        && ("enforce_warning_list" !in raw ==> p.value.enforceWarningList == Some(false))
  {
  }

  /** The import switches of `misp` default to false. */
  lemma MispImportSwitchDefaults(raw: Section, co: Coercions)
    ensures var p := ParseMisp(raw, co);
      p.Success? ==>
        ("import_with_attachments" !in raw ==> p.value.importWithAttachments == Some(false))
        && ("import_unsupported_observables_as_text" !in raw ==> p.value.importUnsupportedObservablesAsText == Some(false))
        && ("propagate_labels" !in raw ==> p.value.propagateLabels == Some(false))
  {
  }

  /** The tag and creator-organisation lists of `misp` default to empty. */
  lemma MispTagListDefaults(raw: Section, co: Coercions)
    ensures var p := ParseMisp(raw, co);
      p.Success? ==>
        ("keep_original_tags_as_label" !in raw ==> p.value.keepOriginalTagsAsLabel == Some([]))
        && ("import_tags_not" !in raw ==> p.value.importTagsNot == Some([]))
        && ("import_creator_orgs" !in raw ==> p.value.importCreatorOrgs == Some([]))
        && ("import_creator_orgs_not" !in raw ==> p.value.importCreatorOrgsNot == Some([]))
  {
  }

  /**
   * The owner-organisation, distribution and threat-level lists of `misp`
   * default to empty, and the keyword filter to None.
   */
  lemma MispFilterListDefaults(raw: Section, co: Coercions)
    ensures var p := ParseMisp(raw, co);
      p.Success? ==>
        ("import_owner_orgs" !in raw ==> p.value.importOwnerOrgs == Some([]))
        && ("import_owner_orgs_not" !in raw ==> p.value.importOwnerOrgsNot == Some([]))
        && ("import_distribution_levels" !in raw ==> p.value.importDistributionLevels == Some([]))
        && ("import_threat_levels" !in raw ==> p.value.importThreatLevels == Some([]))
        && ("import_keyword" !in raw ==> p.value.importKeyword == None)
  {
  }
}

=== FILE: text.dfy ===
/**
 * The handful of Python string operations the two core files rely on:
 * `str.strip()`, `str.split(",")`, `",".join(...)`, `str.rstrip("/")`,
 * `str.endswith(...)`, `str.replace(pattern, "")`, and the conversions
 * `int(str)` and `str(int)`.
 */
module Text {
  import opened Wrappers

  /** Python's `str.isspace()` for one character. */
  predicate IsSpace(c: char) {
    c == ' ' || ('\t' <= c <= '\r') || ('\U{1C}' <= c <= '\U{1F}')
    || c == '\U{85}' || c == '\U{A0}' || c == '\U{1680}'
    || ('\U{2000}' <= c <= '\U{200A}') || c == '\U{2028}' || c == '\U{2029}'
    || c == '\U{202F}' || c == '\U{205F}' || c == '\U{3000}'
  }

  predicate AllSpace(s: string) {
    forall i :: 0 <= i < |s| ==> IsSpace(s[i])
  }

  /** A string with no whitespace at either end: what `strip()` produces. */
  predicate Stripped(s: string) {
    s == [] || (!IsSpace(s[0]) && !IsSpace(s[|s| - 1]))
  }

  /** Index of the first non-whitespace character (|s| if there is none). */
  function LeadEnd(s: string): (i: nat)
    ensures i <= |s| && AllSpace(s[..i])
    ensures i < |s| ==> !IsSpace(s[i])
  {
    if |s| == 0 || !IsSpace(s[0]) then 0
    else
      var i := 1 + LeadEnd(s[1..]);
      assert s[..i] == [s[0]] + s[1..][..i - 1];
      i
  }

  /** Index just after the last non-whitespace character (0 if there is none). */
  function TrailStart(s: string): (j: nat)
    ensures j <= |s| && AllSpace(s[j..])
    ensures j > 0 ==> !IsSpace(s[j - 1])
  {
    if |s| == 0 || !IsSpace(s[|s| - 1]) then |s|
    else
      var j := TrailStart(s[..|s| - 1]);
      assert s[j..] == s[..|s| - 1][j..] + [s[|s| - 1]];
      j
  }

  /**
   * Python's `s.strip()`: what remains once the whitespace at both ends is
   * removed. The result is stripped, and only whitespace was cut off.
   */
  function Strip(s: string): (r: string)
    ensures Stripped(r)
    ensures exists i, j :: 0 <= i <= j <= |s| && AllSpace(s[..i]) && AllSpace(s[j..]) && r == s[i..j]
    ensures Stripped(s) ==> r == s
  {
    var i := LeadEnd(s);
    if i == |s| then
      assert AllSpace(s[|s|..]);
      ""
    else
      var j := TrailStart(s);
      assert i < j;
      assert Stripped(s) ==> i == 0 && j == |s|;
      s[i..j]
  }

  /** Number of occurrences of `c` in `s`. */
  function Count(s: string, c: char): nat {
    if s == [] then 0 else (if s[0] == c then 1 else 0) + Count(s[1..], c)
  }

  /** Python's `sep.join(parts)` for a one-character separator. */
  function Join(parts: seq<string>, sep: char): string {
    if |parts| == 0 then ""
    else if |parts| == 1 then parts[0]
    else parts[0] + [sep] + Join(parts[1..], sep)
  }

  /**
   * Python's `s.split(sep)` for a one-character separator: one piece more
   * than there are separators, no piece holds the separator, and joining
   * the pieces gives `s` back.
   */
  function Split(s: string, sep: char): (parts: seq<string>)
    ensures |parts| == Count(s, sep) + 1
    ensures forall k :: 0 <= k < |parts| ==> sep !in parts[k]
    ensures Join(parts, sep) == s
  {
    if s == [] then [""]
    else
      var rest := Split(s[1..], sep);
      if s[0] == sep then
        assert s == [sep] + s[1..];
        [""] + rest
      else
        var parts := [[s[0]] + rest[0]] + rest[1..];
        assert sep !in [s[0]] + rest[0];
        assert forall k :: 1 <= k < |parts| ==> parts[k] == rest[k];
        assert Join(parts, sep) == s by {
          if |rest| == 1 {
            assert s == [s[0]] + s[1..];
          } else {
            assert parts[1..] == rest[1..];
            assert s == [s[0]] + (rest[0] + [sep] + Join(rest[1..], sep));
          }
        }
        parts
  }

  /** Splitting a string with no separator before a known tail. */
  lemma {:induction false} SplitPrefix(a: string, t: string, sep: char)
    requires sep !in a
    ensures Split(a + t, sep) == [a + Split(t, sep)[0]] + Split(t, sep)[1..]
  {
    if a != [] {
      var s := a + t;
      assert s != [] && s[0] == a[0] && a[0] != sep;
      assert s[1..] == a[1..] + t;
      SplitPrefix(a[1..], t, sep);
      var rest := Split(s[1..], sep);
      assert Split(s, sep) == [[a[0]] + rest[0]] + rest[1..];
      assert rest[0] == a[1..] + Split(t, sep)[0];
      assert rest[1..] == Split(t, sep)[1..];
      assert [a[0]] + (a[1..] + Split(t, sep)[0]) == a + Split(t, sep)[0];
    } else {
      var parts := Split(t, sep);
      assert a + t == t && a + parts[0] == parts[0];
      assert parts == [parts[0]] + parts[1..];
    }
  }

  /** `split` undoes `join` when no piece holds the separator. */
  lemma {:induction false} SplitJoin(parts: seq<string>, sep: char)
    requires |parts| >= 1
    requires forall k :: 0 <= k < |parts| ==> sep !in parts[k]
    ensures Split(Join(parts, sep), sep) == parts
  {
    if |parts| == 1 {
      SplitPrefix(parts[0], "", sep);
      assert parts[0] + "" == parts[0];
      assert Split("", sep) == [""];
    } else {
      var tail := Join(parts[1..], sep);
      var u := [sep] + tail;
      assert Join(parts, sep) == parts[0] + u;
      SplitJoin(parts[1..], sep);
      SplitPrefix(parts[0], u, sep);
      assert u != [] && u[0] == sep && u[1..] == tail;
      assert Split(u, sep) == [""] + Split(u[1..], sep);
      assert Split(u, sep)[0] == "" && Split(u, sep)[1..] == parts[1..];
      assert parts[0] + "" == parts[0];
      assert parts == [parts[0]] + parts[1..];
    }
  }

  /**
   * Joining pieces that hold no separator puts exactly one separator
   * between each two neighbours, and no other.
   */
  lemma JoinCount(parts: seq<string>, sep: char)
    requires |parts| >= 1
    requires forall k :: 0 <= k < |parts| ==> sep !in parts[k]
    ensures Count(Join(parts, sep), sep) == |parts| - 1
  {
    SplitJoin(parts, sep);
  }

  /** Joining at least two pieces always leaves a separator in the string. */
  lemma JoinEmpty(parts: seq<string>, sep: char)
    ensures Join(parts, sep) == "" <==> parts == [] || parts == [""]
  {
    if |parts| >= 2 {
      assert Join(parts, sep)[|parts[0]|] == sep;
    }
  }

  predicate EndsWith(s: string, suffix: string) {
    |suffix| <= |s| && s[|s| - |suffix|..] == suffix
  }

  /** True when `pattern` occurs in `s` starting at index `i`. */
  predicate OccursAt(s: string, pattern: string, i: nat) {
    i + |pattern| <= |s| && s[i..i + |pattern|] == pattern
  }

  /** A suffix of `s` other than `s` itself is still a suffix of `s[1..]`. */
  lemma EndsWithTail(s: string, pattern: string)
    requires |s| > 0
    ensures EndsWith(s, pattern) && |s| > |pattern| ==> EndsWith(s[1..], pattern)
  {
    if EndsWith(s, pattern) && |s| > |pattern| {
      assert s[1..][|s[1..]| - |pattern|..] == s[|s| - |pattern|..];
    }
  }

  /** A pattern that occurs nowhere in `s` occurs nowhere in `s[1..]`. */
  lemma NoOccurrenceTail(s: string, pattern: string)
    requires |s| > 0
    ensures (forall i :: 0 <= i < |s| ==> !OccursAt(s, pattern, i)) ==>
            (forall i :: 0 <= i < |s[1..]| ==> !OccursAt(s[1..], pattern, i))
  {
    if forall i :: 0 <= i < |s| ==> !OccursAt(s, pattern, i) {
      forall i | 0 <= i < |s[1..]|
        ensures !OccursAt(s[1..], pattern, i)
      {
        assert !OccursAt(s, pattern, i + 1);
        if i + |pattern| <= |s[1..]| {
          assert s[1..][i..i + |pattern|] == s[i + 1..i + 1 + |pattern|];
        }
      }
    }
  }

  /**
   * Python's `s.replace(pattern, "")`: every occurrence of `pattern`,
   * found left to right without overlap, is removed.
   */
  function RemoveAll(s: string, pattern: string): (r: string)
    requires |pattern| > 0
    ensures |r| <= |s|
    ensures EndsWith(s, pattern) ==> |r| < |s|
    ensures (forall i :: 0 <= i < |s| ==> !OccursAt(s, pattern, i)) ==> r == s
    decreases |s|
  {
    if |s| < |pattern| then s
    else if s[..|pattern|] == pattern then
      assert OccursAt(s, pattern, 0);
      RemoveAll(s[|pattern|..], pattern)
    else
      var r := [s[0]] + RemoveAll(s[1..], pattern);
      EndsWithTail(s, pattern);
      NoOccurrenceTail(s, pattern);
      r
  }

  /**
   * The scan is left to right: everything before the first occurrence is
   * kept, that occurrence is dropped, and the rest is scanned afresh.
   */
  lemma {:induction false} RemoveAllFirst(p: string, pattern: string, rest: string)
    requires |pattern| > 0
    requires forall i :: 0 <= i < |p| ==> !OccursAt(p + pattern + rest, pattern, i)
    ensures RemoveAll(p + pattern + rest, pattern) == p + RemoveAll(rest, pattern)
  {
    var s := p + pattern + rest;
    if p == [] {
      assert s == pattern + rest && s[..|pattern|] == pattern;
      assert s[|pattern|..] == rest;
    } else {
      assert !OccursAt(s, pattern, 0);
      assert s[1..] == p[1..] + pattern + rest;
      forall i | 0 <= i < |p[1..]|
        ensures !OccursAt(p[1..] + pattern + rest, pattern, i)
      {
        assert !OccursAt(s, pattern, i + 1);
        assert s[i + 1..i + 1 + |pattern|] == (p[1..] + pattern + rest)[i..i + |pattern|];
      }
      RemoveAllFirst(p[1..], pattern, rest);
      assert RemoveAll(s, pattern) == [p[0]] + RemoveAll(s[1..], pattern);
      ConsAssoc(p[0], p[1..], RemoveAll(rest, pattern));
      assert p == [p[0]] + p[1..];
    }
  }

  /** `RemoveAllFirst` stated on one string and the index of its first occurrence. */
  lemma RemoveAllAt(s: string, pattern: string, i: nat)
    requires |pattern| > 0
    requires OccursAt(s, pattern, i)
    requires forall j :: 0 <= j < i ==> !OccursAt(s, pattern, j)
    ensures RemoveAll(s, pattern) == s[..i] + RemoveAll(s[i + |pattern|..], pattern)
  {
    assert s == s[..i] + pattern + s[i + |pattern|..];
    RemoveAllFirst(s[..i], pattern, s[i + |pattern|..]);
  }

  /** A proof step: prepending one element associates. */
  lemma ConsAssoc<T>(x: T, a: seq<T>, b: seq<T>)
    ensures [x] + (a + b) == ([x] + a) + b
  {
  }


  /**
   * Removing a pattern that occurs only at the very end of `p + pattern`
   * gives back `p`.
   */
  lemma {:induction false} RemoveAllSuffix(p: string, pattern: string)
    requires |pattern| > 0
    requires forall i :: 0 <= i < |p| ==> !OccursAt(p + pattern, pattern, i)
    ensures RemoveAll(p + pattern, pattern) == p
  {
    var s := p + pattern;
    if p == [] {
      assert s == pattern && s[..|pattern|] == pattern;
      assert s[|pattern|..] == [];
    } else {
      assert !OccursAt(s, pattern, 0);
      assert s[1..] == p[1..] + pattern;
      forall i | 0 <= i < |p[1..]|
        ensures !OccursAt(p[1..] + pattern, pattern, i)
      {
        assert !OccursAt(s, pattern, i + 1);
        assert s[i + 1..i + 1 + |pattern|] == (p[1..] + pattern)[i..i + |pattern|];
      }
      RemoveAllSuffix(p[1..], pattern);
      assert p == [p[0]] + p[1..];
    }
  }

  /**
   * Python's `s.rstrip(c)` for a one-character argument: the longest
   * prefix of `s` that does not end in `c`; everything cut off is `c`.
   */
  function RStrip(s: string, c: char): (r: string)
    ensures r <= s
    ensures r == [] || r[|r| - 1] != c
    ensures forall i :: |r| <= i < |s| ==> s[i] == c
  {
    if |s| == 0 || s[|s| - 1] != c then s else RStrip(s[..|s| - 1], c)
  }

  predicate IsDigit(c: char) {
    '0' <= c <= '9'
  }

  predicate AllDigits(s: string) {
    forall i :: 0 <= i < |s| ==> IsDigit(s[i])
  }

  function DigitValue(c: char): nat
    requires IsDigit(c)
  {
    (c as int) - ('0' as int)
  }

  function DigitChar(d: nat): (c: char)
    requires d < 10
    ensures IsDigit(c) && DigitValue(c) == d
  {
    (('0' as int) + d) as char
  }

  /** Value of a string of decimal digits, most significant first. */
  function DigitsValue(s: string): nat
    requires AllDigits(s)
  {
    if s == [] then 0 else DigitsValue(s[..|s| - 1]) * 10 + DigitValue(s[|s| - 1])
  }

  /**
   * Python's `int(s)` on a string: surrounding whitespace is ignored, then
   * an optional sign and one or more decimal digits; anything else is a
   * `ValueError` (None here).
   */
  function ParseInt(s: string): Option<int> {
    ParseStripped(Strip(s))
  }

  /** `int(...)` on a string with no surrounding whitespace. */
  function ParseStripped(t: string): Option<int> {
    if |t| > 1 && (t[0] == '+' || t[0] == '-') && AllDigits(t[1..]) then
      var n: int := DigitsValue(t[1..]);
      Some(if t[0] == '-' then -n else n)
    else if |t| > 0 && AllDigits(t) then Some(DigitsValue(t))
    else None
  }

  /** Decimal digits of a natural number, without leading zeros. */
  function FormatNat(n: nat): (r: string)
    ensures |r| > 0 && AllDigits(r) && DigitsValue(r) == n
    ensures |r| > 1 ==> r[0] != '0'
  {
    if n < 10 then [DigitChar(n)]
    else
      var r := FormatNat(n / 10) + [DigitChar(n % 10)];
      assert r[..|r| - 1] == FormatNat(n / 10);
      r
  }

  /**
   * Python's `str(i)` for an integer: a minus sign exactly when `i` is
   * negative, then the decimal digits of its magnitude without a leading zero.
   */
  function FormatInt(i: int): (r: string)
    ensures |r| > 0 && (r[0] == '-' <==> i < 0)
    ensures var digits := if i < 0 then r[1..] else r;
      |digits| > 0 && AllDigits(digits) && DigitsValue(digits) == if i < 0 then -i else i
    ensures var digits := if i < 0 then r[1..] else r;
      |digits| > 1 ==> digits[0] != '0'
  {
    if i < 0 then "-" + FormatNat(-i) else FormatNat(i)
  }

  /** `int(s)` reads a run of decimal digits as its value. */
  lemma ParseIntDigits(s: string)
    requires |s| > 0 && AllDigits(s)
    ensures ParseInt(s) == Some(DigitsValue(s))
  {
    assert !IsSpace(s[0]) && !IsSpace(s[|s| - 1]);
  }

  /**
   * `int(t)` reads a leading `-` followed by digits as their value negated,
   * and a leading `+` followed by digits as their value.
   */
  lemma ParseIntSigned(t: string)
    requires |t| > 1 && (t[0] == '-' || t[0] == '+') && AllDigits(t[1..])
    ensures ParseInt(t) == Some(if t[0] == '-' then -(DigitsValue(t[1..]) as int) else DigitsValue(t[1..]))
  {
    assert IsDigit(t[1..][|t| - 2]);
    assert Stripped(t);
  }

  /** An empty or all-whitespace string is not a number: `int("")` raises. */
  lemma ParseIntBlank(s: string)
    requires AllSpace(s)
    ensures ParseInt(s) == None
  {
    assert LeadEnd(s) == |s|;
  }

  /** `int(str(i)) == i`: parsing undoes formatting. */
  lemma FormatIntRoundTrip(i: int)
    ensures ParseInt(FormatInt(i)) == Some(i)
  {
    if i < 0 {
      var s := FormatInt(i);
      assert s[1..] == FormatNat(-i);
      ParseIntSigned(s);
    } else {
      ParseIntDigits(FormatNat(i));
    }
  }
}

=== FILE: timestamps.dfy ===
/**
 * `safe_aware_datetime_validator`: the timestamp normaliser in front of
 * the `import_from_date` field. ISO-8601 parsing belongs to libraries the
 * model cannot see, so the two parsers and the process's local zone are
 * parameters.
 */
module Timestamps {
  import opened Wrappers
  import opened Values

  /** An aware datetime as the strict parser yields it: wall clock and UTC offset (minutes). */
  datatype AwareReading = AwareReading(wall: int, offset: int)

  /**
   * The library calls the validator relies on:
   * - `strictAware`: `TypeAdapter(AwareDatetime).validate_python(s)`, None when it raises;
   * - `fromIsoFormat`: `datetime.fromisoformat(s)`, None when it raises;
   * - `localOffset`: the local zone's UTC offset (minutes) at a naive wall-clock time.
   */
  datatype Parsers = Parsers(
    strictAware: string -> Option<AwareReading>,
    fromIsoFormat: string -> Option<DateTime>,
    localOffset: int -> int)

  /**
   * `dt.astimezone(tz=timezone.utc)`: the same instant expressed with a
   * zero offset; a naive datetime is first read in the local zone.
   */
  function ToUtc(dt: DateTime, localOffset: int -> int): (r: DateTime)
    ensures r.offset == Some(0)
    ensures dt.Aware() ==> r.Instant() == dt.Instant()
    ensures !dt.Aware() ==> r.Instant() == dt.wall - localOffset(dt.wall) * MicrosPerMinute
  {
    match dt.offset
    case Some(_) => DateTime(dt.Instant(), Some(0))
    case None => DateTime(dt.wall - localOffset(dt.wall) * MicrosPerMinute, Some(0))
  }

  /**
   * `safe_aware_datetime_validator`. A datetime is converted to UTC. A
   * string is parsed strictly and kept with the offset it carries; when the
   * strict parse fails, the string is re-read by `fromisoformat` and
   * converted to UTC (a naive reading in the local zone). Any other value
   * passes through untouched. A string neither parser accepts is an error.
   */
  function SafeAwareDatetime(v: Value, p: Parsers): (r: Result<Value, string>)
    ensures !v.VDateTime? && !v.VStr? ==> r == Success(v)
    ensures (v.VDateTime? || v.VStr?) && r.Success? ==> r.value.VDateTime? && r.value.dt.Aware()
    ensures v.VDateTime? ==> r.Success? && r.value.dt.offset == Some(0)
    ensures v.VDateTime? ==> r == Success(VDateTime(ToUtc(v.dt, p.localOffset)))
    ensures v.VDateTime? && v.dt.Aware() ==> r.value.dt.Instant() == v.dt.Instant()
    ensures v.VStr? ==> (r.Success? <==> p.strictAware(v.s).Some? || p.fromIsoFormat(v.s).Some?)
    ensures v.VStr? && p.strictAware(v.s).Some? ==>
      r == Success(VDateTime(DateTime(p.strictAware(v.s).value.wall, Some(p.strictAware(v.s).value.offset))))
    ensures v.VStr? && p.strictAware(v.s).None? && r.Success? ==> r.value.dt.offset == Some(0)
    ensures v.VStr? && p.strictAware(v.s).None? && p.fromIsoFormat(v.s).Some? ==>
      r == Success(VDateTime(ToUtc(p.fromIsoFormat(v.s).value, p.localOffset)))
  {
    match v
    case VDateTime(dt) => Success(VDateTime(ToUtc(dt, p.localOffset)))
    case VStr(s) =>
      (match p.strictAware(s)
       case Some(a) => Success(VDateTime(DateTime(a.wall, Some(a.offset))))
       case None =>
         (match p.fromIsoFormat(s)
          case Some(dt) => Success(VDateTime(ToUtc(dt, p.localOffset)))
          case None => Failure(s)))
    case _ => Success(v)
  }

  /**
   * A string only the fallback parser reads, and that names no offset, is
   * read as local time and comes out in UTC.
   */
  lemma FallbackReadsLocalZone(s: string, p: Parsers)
    requires p.strictAware(s).None? && p.fromIsoFormat(s).Some? && !p.fromIsoFormat(s).value.Aware()
    ensures var r := SafeAwareDatetime(VStr(s), p);
      var naive := p.fromIsoFormat(s).value;
      r.Success? && r.value.dt.offset == Some(0)
      && r.value.dt.Instant() == naive.wall - p.localOffset(naive.wall) * MicrosPerMinute
  {
  }
}

=== FILE: values.dfy ===
/**
 * Raw configuration values as they reach the MISP connector's settings
 * model from a YAML file, a `.env` file or the process environment, with
 * the two Python built-ins the migration rule applies to them: truthiness
 * and `int(...)`.
 */
module Values {
  import opened Wrappers
  import Text

  /** The number of microseconds in a minute. */
  const MicrosPerMinute: int := 60 * 1000 * 1000

  /** The largest day count, either way, a `timedelta` can hold. */
  const MaxTimedeltaDays: int := 999999999

  const MinutesPerDay: int := 24 * 60

  /**
   * `timedelta(minutes=n)` exists: the whole days of `n` minutes, rounded
   * down, stay within the `timedelta` range (beyond it Python raises
   * `OverflowError`).
   */
  predicate MinutesInRange(n: int) {
    -MaxTimedeltaDays <= n / MinutesPerDay <= MaxTimedeltaDays
  }

  /**
   * A `datetime`: the wall-clock reading in microseconds from a fixed
   * epoch, and the UTC offset in minutes when the value is timezone-aware
   * (None for a naive datetime).
   */
  datatype DateTime = DateTime(wall: int, offset: Option<int>)
  {
    predicate Aware() { offset.Some? }

    /** The instant an aware datetime denotes, in microseconds since the UTC epoch. */
    function Instant(): int
      requires Aware()
    {
      wall - offset.value * MicrosPerMinute
    }
  }

  /** A raw value: what YAML, a `.env` file or an environment variable can carry. */
  datatype Value =
    | VStr(s: string)
    | VInt(i: int)
    | VBool(b: bool)
    | VNone
    | VList(items: seq<Value>)
    | VMap(entries: map<string, Value>)
    | VDateTime(dt: DateTime)
    | VDuration(micros: int)   // a `timedelta`

  /** A raw section (`opencti`, `connector`, `misp`, ...): field name to raw value. */
  type Section = map<string, Value>

  /** The raw input handed to the settings model: section name to section. */
  type RawData = map<string, Section>

  /** Python's truth value of a raw value (`if value:`). */
  predicate Truthy(v: Value) {
    match v
    case VStr(s) => s != ""
    case VInt(i) => i != 0
    case VBool(b) => b
    case VNone => false
    case VList(items) => items != []
    case VMap(entries) => entries != map[]
    case VDateTime(_) => true
    case VDuration(d) => d != 0
  }

  /** The exception Python's `int(...)` raises. */
  datatype IntError = ValueError(text: string) | TypeError

  /**
   * Python's `int(v)`: integers pass, booleans become 0 or 1, strings are
   * parsed as decimal numerals; every other kind of value is a `TypeError`.
   */
  function IntOf(v: Value): (r: Result<int, IntError>)
    ensures v.VInt? ==> r == Success(v.i)
    ensures v.VBool? ==> r == Success(if v.b then 1 else 0)
    ensures v.VStr? ==> (r.Success? <==> Text.ParseInt(v.s).Some?)
    ensures v.VStr? && r.Success? ==> r.value == Text.ParseInt(v.s).value
    ensures r.Success? <==> v.VInt? || v.VBool? || (v.VStr? && Text.ParseInt(v.s).Some?)
  {
    match v
    case VInt(i) => Success(i)
    case VBool(b) => Success(if b then 1 else 0)
    case VStr(s) =>
      (match Text.ParseInt(s)
       case Some(n) => Success(n)
       case None => Failure(ValueError(s)))
    case _ => Failure(TypeError)
  }
}

=== FILE: wrappers.dfy ===
/** Failure-carrying result types shared by every module of the model. */
module Wrappers {

  datatype Option<+T> = None | Some(value: T)

  /** Either a value or the error that the source raises or returns instead. */
  datatype Result<+T, +E> = Success(value: T) | Failure(error: E)
}
